=== FILE: README.md ===
# Casino table front-ends: verified model of the game core

Five Python GUI front-ends drive live casino tables from a card-reading shoe on a
serial port:

- `canvasab.py` runs an Andar Bahar table;
- `mb.py`, `mbmain.py`, `bacarat.py` and `custommb.py` run two-card Baccarat boards.

Without the widgets, images, threads and the port, each front-end is a small
sequential game core over a few globals. This project models those cores in Dafny and
proves what they guarantee.

Shared modules:

- `Text`: the Python string primitives the core relies on (`strip`, `lower`,
  `isalnum`, `rstrip`, `split("_")[-1]`, `basename`, `splitext`, `int()`).
- `Cards`: `card_rank`, the two `card_point` tables and `compute_total`.
- `CardFacts` and `TotalFacts`: the laws of those definitions.
- `Scoring`: the winner rule, the pair, natural and super-six flags, and the outcome
  counters.
- `History`: the history-line formats.
- `Beads`: the bead plate. Columns of `BEAD_ROWS` = 6 are filled top to bottom, and
  each bead goes to the compact history file.
- `Framer`: the two buffer loops of canvasab.py's serial reader.
- `Rounds`: the round state that mb.py and mbmain.py share.

Per front-end modules:

- `CanvasAb`, `Mb`, `MbMain`, `Bacarat` and `CustomMb` each hold one `class` over that
  file's globals.
- Each class's methods mutate the globals in place. Each method is proved equal to a
  value-level specification function of the old state: `State() == Spec(old(State()), …)`.
- The invariants and behavioural laws are lemmas about those specification functions.
- Running an evaluation that the source schedules with `root.after` is modelled as
  happening at once.

## Model

| member | source | states |
|---|---|---|
| Cards.StemRank | canvasab.py:170-174 | The rank read off a lower-cased stem: the text after the last `_`, or else the alphanumerics with the trailing run of `s/h/c/d` stripped. The rank is never longer than the name. Its laws are the `CardFacts` lemmas below. |
| Cards.RankOf | mb.py:60-67 | `card_rank` of mb.py and mbmain.py, taken on the lower-cased base-name stem. The rank is never longer than the card name. |
| Cards.CardRank | canvasab.py:166-174 | `card_rank` of canvasab.py: the empty name has the empty rank. |
| Cards.RankPoint | mb.py:72-79 | Numeric rank text is worth what `int()` reads, except `10`, which is 0. Text `int()` rejects never raises: it is worth 1 iff it is `ace` or `a`, and 0 otherwise. |
| Cards.CardPoint | mb.py:69-79 | A card whose rank is not a number outside 0..9 is worth 0..9. `CardFacts.CardPointOfSuitName` gives the value of every `suit_rank` name. |
| Cards.LongRankPoint | bacarat.py:104-113 | Numeric rank text is worth what `int()` reads, except `10`, which is 0. Text `int()` rejects is worth 1 iff it is exactly `ace`, and 0 otherwise, so `a`, `j` and `ACE` are 0. |
| Cards.UnderscorePoint | bacarat.py:100-113 | A card whose text after the last `_` is not a number outside 0..9 is worth 0..9. `CardFacts.UnderscorePointOfSuitName` gives the value of every `suit_rank` name. |
| CardFacts.RankGuardRedundant | canvasab.py:166-168 | The empty-name guard changes nothing. The canvasab.py and mb.py versions of `card_rank` agree on every name. |
| CardFacts.RankOfSuitName | mbmain.py:61-67 | A `suit_rank` name has the lower-cased rank segment as its rank, whatever the suit. |
| CardFacts.RankOfAlnumName | mb.py:62-66 | A name made of letters and digits only has as its rank its lower-cased text less the trailing suit letters. |
| CardFacts.RankOfShortCode | canvasab.py:173-174 | A short code (an alphanumeric rank, then suit letters in either case) has the lower-cased rank part as its rank. The whole trailing suit-letter run is removed. |
| CardFacts.ShortCodeRank | canvasab.py:170-174 | Two-character codes: `AS` and `AD` both give `a`, `KC` gives `k`, and `2H` gives `2`. |
| CardFacts.DigitRankPoints | mb.py:69-79 | Both value tables give a digit rank 1..9 its face value and give `10` the value 0. |
| CardFacts.ShortFormsDiffer | bacarat.py:100-113 | `a` is an ace in mb.py but worth 0 in bacarat.py and custommb.py. `ACE` is an ace in mb.py, which lower-cases first, and worth 0 in the others. |
| CardFacts.CardPointOfSuitName | mb.py:69-79 | Under the mb.py rule, a `suit_rank` card is worth the value of its lower-cased rank, whatever the suit. |
| CardFacts.UnderscorePointOfSuitName | bacarat.py:100-113 | Under the bacarat.py rule, a `suit_rank` card is worth the value of its rank text, whatever the suit. |
| CardFacts.DigitCard | custommb.py:35-44 | A `suit_d` card (d in 1..9) has rank `d` and is worth d under both point rules. |
| Cards.Points | mb.py:81-83 | One point per card, in order. |
| Cards.Total | mb.py:81-83 | `compute_total` always lies in 0..9, including when `int()` reads a negative number. |
| Cards.CardsOf | mb.py:423-424 | One card per accepted line, in the order the lines arrive. |
| TotalFacts.TotalOfConcat | custommb.py:46-47 | The total of two piles together is the sum of their totals mod 10. |
| TotalFacts.TotalOfPair | bacarat.py:115-117 | A two-card hand totals the two points mod 10. |
| Scoring.Decide | mb.py:306-311 | TIE iff the totals are equal, PLAYER iff Player's total is higher, BANKER iff it is lower. |
| Scoring.WinnerRulesAgree | bacarat.py:181-197 | bacarat.py's natural branch and its other branch pick the same winner. custommb.py's "TIE unless different" also picks the same winner as mb.py's rule. |
| Scoring.Judge | mb.py:313-320 | The winner follows the totals. `natural` holds iff either total is 8 or 9. `super_six` holds iff Player's total is below 6 and Banker's is 6, so it implies a Banker win on 6. |
| Scoring.Evaluate | mbmain.py:286-313 | Player's total is `compute_total` of cards 0–1 and Banker's of cards 2–3, both in 0..9. Each pair flag holds iff that hand's two `card_rank`s agree. The winner is TIE iff the totals are equal and PLAYER iff Player's is higher. `natural` holds iff either total is 8 or 9, and `super_six` iff Banker wins on 6 against a lower Player total. |
| Scoring.PairIgnoresSuits | mb.py:315-316 | The Player pair flag holds iff the two rank segments agree up to case, whatever the suits. |
| Scoring.Bumped | mb.py:323-327 | An outcome bumps only counter keys, and always its winner's key. |
| Scoring.Tally | mbmain.py:316-320 | The counter updates keep the set of keys. |
| Scoring.TallyBumps | mb.py:323-327 | Each counter grows by one if the outcome bumps it and stays the same otherwise. |
| Scoring.TallyBumpsOneWinner | mbmain.py:316-320 | Exactly one of PLAYER, BANKER and TIE grows, so their sum grows by one. |
| History.Extras | mb.py:341-345 | At most four tags. |
| History.ExtrasAreBumpedFlags | mb.py:341-347 | The tags are exactly the counters the round bumps besides its winner's. |
| History.Summary | mb.py:339-348 | The summary line is never empty. What it records is read back by `SummaryNamesGame` and `SummaryNamesWinner`. |
| History.SummaryTagged | mb.py:346-347 | The summary ends in `]` iff the round had a pair, a natural or a super six. |
| History.TagList | mb.py:345-346 | The bracketed list is empty iff there are no tags. |
| History.SummaryNamesGame | mb.py:339 | A summary starts with `Game `, then the decimal field up to the next colon reads back as the game number plus one. |
| History.SummaryNamesWinner | mb.py:339-348 | The text after the last `>` of a summary is the winner's name followed by the tag list, whatever the card names. |
| History.ResultLine | bacarat.py:200-201 | An evaluated round's arrow line is never empty. |
| History.ResultLineNamesWinner | custommb.py:181-182 | The text after the last arrow of a result line is the winner's name, whatever the card names. |
| History.ManualLine | custommb.py:206-210 | A manual line is never empty. |
| History.ManualLineNamesWinner | bacarat.py:248-272 | The text after the arrow of a manual line is the requested name, provided the name has no arrow in it. |
| Text.StripIsSlice | canvasab.py:529 | `strip()` gives a contiguous slice with no blank at either end. It is empty iff the text is all blanks. |
| Text.StripIdempotent | canvasab.py:583-585 | Stripping twice is stripping once, so a stripped token that reaches `process_token` is unchanged by its own `strip()`. |
| Text.AfterLastIsLastSegment | custommb.py:36 | `split("_")[-1]` has no `_`, is a suffix of the name, and follows the last `_`. |
| Text.ParseNatToString | mb.py:76-79 | `int()` reads a decimal numeral back as its value. |
| Text.ParseIntRejectsLetter | bacarat.py:110-113 | `int()` rejects text that starts with a letter, so it falls to the 0 branch. |
| Beads.LayoutIsShaped | canvasab.py:439-447 | The column layout of a run of outcomes has every column but the last full at 6, and the last holding 1–6. Read back in fill order, it gives the outcomes. |
| Beads.ShapedIsLayout | mbmain.py:267-278 | A well-shaped plate is the layout of its own beads, so the columns depend on the outcome sequence alone. |
| Beads.FlattenSnoc | mbmain.py:271-275 | Adding a column adds its beads at the end of the fill order. |
| Beads.CountSnoc | canvasab.py:439-447 | Appending a bead adds one to its symbol's count and no other. |
| Beads.BeadPlate.constructor | canvasab.py:156 | The plate and the file start empty. |
| Beads.BeadPlate.AppendBead | canvasab.py:439-447 | `append_bead` keeps the plate well shaped, adds the symbol at the end of the fill order, makes the columns the layout of the new sequence, and saves the symbol to the file. |
| Beads.BeadPlate.SaveHistoryCompact | mbmain.py:83-91 | Appends one line holding the symbol and leaves the plate alone. |
| Framer.FirstBreak | canvasab.py:572 | The index found is inside the buffer. |
| Framer.FirstBreakIsFirst | canvasab.py:571-572 | No index is found iff there is no `\n` or `\r`. Otherwise the index holds a line break and nothing before it does. |
| Framer.BreakFound | canvasab.py:571 | The loop test `'\n' in buffer or '\r' in buffer` holds iff a first break exists. |
| Framer.SplitLines | canvasab.py:571-575 | The line loop never grows the buffer. |
| Framer.SplitLinesTokens | canvasab.py:573-575 | Every token the line loop hands on is non-empty, stripped and free of line breaks. |
| Framer.SplitLinesRest | canvasab.py:571-575 | What the line loop leaves holds no line break and is the suffix after the last one. |
| Framer.SplitLinesOfConcat | canvasab.py:570-575 | Framing the lines of `a` and then of its leftover followed by `b` gives the tokens of framing `a + b` at once. |
| Framer.FixedLength | canvasab.py:579-586 | It picks an L of 2, 3, 4 that the buffer holds and whose stripped prefix is a `card_map` key, and no shorter L fits, so the first one wins. When it picks none, no L fits. |
| Framer.TakeFixed | canvasab.py:577-587 | The fixed-length loop never grows the buffer. |
| Framer.TakeFixedConsumes | canvasab.py:577-587 | The buffer is the consumed pieces followed by the leftover, so no byte is dropped. Nothing more fits at the front of the leftover. |
| Framer.TakeFixedTokens | canvasab.py:582-585 | One token per consumed piece. Each piece is 2–4 characters long, and its token is the stripped piece. |
| Framer.FrameSettles | canvasab.py:570-587 | After both loops the buffer has no line break and no code fits at its front. Framing it again hands on nothing. |
| Framer.Frame | canvasab.py:570-587 | What a pass leaves is the end of the buffer, never longer than it. `FrameSettles`, `SplitLinesOfConcat` and `ChunkBoundariesMatter` state what it hands on. |
| Framer.ChunkBoundariesMatter | canvasab.py:577-587 | `"ASX\n"` read at once gives the single token `ASX`. Read as `"AS"` and then `"X\n"`, it gives `AS` and then `X`. |
| Framer.DrainLines | canvasab.py:571-575 | The first `while` loop returns exactly the line-loop tokens and leftover. |
| Framer.TakeCodes | canvasab.py:577-587 | The second `while` loop, with its `for L in (2, 3, 4)`, returns exactly the fixed-length tokens and leftover. |
| Framer.Feed | canvasab.py:565-587 | An empty read leaves the buffer alone. Otherwise the data is appended and both loops frame it. |
| CanvasAb.SideSymbol | canvasab.py:488-489 | `"A"` iff the side is `ANDAR`, and `"B"` otherwise. |
| CanvasAb.Manual | canvasab.py:467-481 | A manual key leaves the round over and keeps the joker and the toggle. On a closed round it changes nothing; on an open one it counts one game and adds the side's bead. `OperationsKeepConsistent` keeps the invariant. |
| CanvasAb.MatchCard | canvasab.py:484-500 | A card changes the table iff the round is open, there is a joker and the card's rank is the joker's. It then closes the round, counts one game and adds the side's bead; the joker and the toggle are kept. |
| CanvasAb.Reset | canvasab.py:503-516 | `reset_game` clears the joker, sets ANDAR next and opens the round, keeping both counters, the game counter, the beads and the file. `ResetKeepsHistory` adds idempotence. |
| CanvasAb.Token | canvasab.py:526-558 | An empty or unknown token changes nothing. A token counts at most one game, only ever appends beads, one per game counted, and never replaces a joker. `TokenJoker`, `TokenDealsAlternately` and `OverRoundIsFrozen` give the cases. |
| CanvasAb.Tokens | canvasab.py:570-587 | A run of tokens counts at most one game per token, only appends beads, one per game counted, and never replaces a joker. `TokensKeepConsistent` keeps the invariant. |
| CanvasAb.StartIsConsistent | canvasab.py:151-161 | The start-up globals keep the bookkeeping invariant. |
| CanvasAb.WinKeepsConsistent | canvasab.py:472-480 | A win counts once for its side, once in `game_counter`, once on the plate and once in the file. |
| CanvasAb.OperationsKeepConsistent | canvasab.py:467-516 | `process_token`, `evaluate_for_match`, `manual_result` and `reset_game` all keep `andar_count + bahar_count == game_counter == beads`, with each side's beads counting its wins. |
| CanvasAb.TokensKeepConsistent | canvasab.py:526-558 | Any run of tokens keeps the invariant. |
| CanvasAb.TokenJoker | canvasab.py:529-539 | An empty or unknown token changes nothing. The first known card while there is no joker becomes the joker and nothing else changes. |
| CanvasAb.TokenDealsAlternately | canvasab.py:547-558 | Once there is a joker, every known card flips `side_toggle` and keeps the joker, even after the round is over. A card wins iff the round is open and its rank is the joker's, and the bead is then the dealt side's symbol. Otherwise only the toggle changes. |
| CanvasAb.OverRoundIsFrozen | canvasab.py:486 | Once the round is over, no tokens and no manual key change the counters, the beads or the file, and the round stays over. |
| CanvasAb.ResetKeepsHistory | canvasab.py:503-512 | `reset_game` clears the joker, sets ANDAR next and opens the round. It keeps every counter and the beads, and is idempotent. |
| CanvasAb.BaharWinsThirdCard | canvasab.py:533-558 | From the start-up state, the first card is the joker and the second goes to ANDAR and misses. The third goes to BAHAR and matches, so BAHAR has one win and one `B` bead, and ANDAR is next. |
| CanvasAb.AndarBahar.constructor | canvasab.py:151-161 | The start-up globals, an empty plate and an empty buffer. |
| CanvasAb.AndarBahar.ManualResult | canvasab.py:467-481 | `manual_result` changes the globals and the plate as the `Manual` specification says, and keeps the plate well shaped. |
| CanvasAb.AndarBahar.EvaluateForMatch | canvasab.py:484-500 | `evaluate_for_match` changes the state as the `MatchCard` specification says. |
| CanvasAb.AndarBahar.ResetGame | canvasab.py:503-516 | `reset_game` changes the state as the `Reset` specification says. |
| CanvasAb.AndarBahar.ProcessToken | canvasab.py:526-558 | `process_token` changes the state as the `Token` specification says. |
| CanvasAb.AndarBahar.SerialRead | canvasab.py:565-587 | One read frames the buffer plus the data and hands the tokens to `process_token` in order. The leftover becomes the buffer, and an empty read changes nothing. |
| Rounds.Settle | mb.py:288-290 | Settling keeps the counter keys. |
| Rounds.Clear | mb.py:364-379 | The three card lists empty and the round opens; the counters and the game number carry over. `ClearOpens` keeps the invariant. |
| Rounds.Accepts | mb.py:423 | A line is dealt only into an open round and only when it is a `card_map` key. `AcceptGrowsDeal` states what it then deals. |
| Rounds.FreshIsCoherent | mb.py:35-48 | The initial globals satisfy the round invariant. |
| Rounds.SettleCloses | mb.py:323-361 | A full deal closes coherently and adds the game to exactly the evaluated winner's counter. |
| Rounds.ClearOpens | mb.py:364-379 | `reset_board` opens an empty coherent round and keeps the counters and the game number. |
| Rounds.AcceptGrowsDeal | mb.py:423-425 | An accepted card joins an open round that holds fewer than four cards, and the deal grows by one. |
| Rounds.EvaluateDigits | mb.py:382-398 | A deal of `suit_d` cards evaluates on the digits alone. |
| Mb.Evaluated | mb.py:285-362 | `evaluate_round` keeps the counter keys. With fewer than four cards dealt it returns early and changes nothing. |
| Mb.Manual | mb.py:382-398 | `manual_result` keeps the counter keys. |
| Mb.Line | mb.py:419-438 | One serial line keeps the counter keys. |
| Mb.Lines | mb.py:407-438 | A run of serial lines keeps the counter keys. |
| Mb.Reset | mb.py:364-379 | `reset_board` empties the deal and opens the round, keeping the counters, the game number, the road and the log. `ResetKeepsConsistent` keeps the invariant. |
| Mb.ManualHand | mb.py:389-395 | A placeholder deal has four cards. |
| Mb.StartIsConsistent | mb.py:35-57 | The initial globals are consistent. |
| Mb.EvaluatedRecords | mb.py:285-362 | A full deal closes the round, keeps the deal and counts one more game. It adds the winner's symbol to the cockroach road, one to the winner's counter, and to the log exactly the summary of this game (number `game_counter + 1`, cards 0–1 against 2–3, the evaluated outcome), and stays consistent: PLAYER + BANKER + TIE == `game_counter` == road length == log length. |
| Mb.ResetKeepsConsistent | mb.py:364-379 | `reset_board` keeps the board consistent and leaves the road and the log alone. |
| Mb.ManualKeepsConsistent | mb.py:382-398 | A manual key keeps the board consistent. |
| Mb.LineKeepsConsistent | mb.py:419-438 | A serial line keeps the board consistent. |
| Mb.ManualHandOutcomes | mb.py:389-395 | PLAYER gives 8 vs 3 with a Player pair and a natural. BANKER gives 3 vs 6 with a Banker pair and a super six. TIE gives 8 vs 8 with both pairs and a natural. |
| Mb.PlayerHand | mb.py:389-391 | The PLAYER placeholder evaluates as 8 vs 3 with a Player pair. |
| Mb.BankerHand | mb.py:392-393 | The BANKER placeholder evaluates as 3 vs 6 with a Banker pair. |
| Mb.TieHand | mb.py:394-395 | The TIE placeholder evaluates as 8 vs 8 with both pairs. |
| Mb.ManualRecordsRequest | mb.py:382-398 | On a closed round a manual key does nothing. On an open round it records the requested winner on the road (any other name records a tie), closes the round and counts one more game. |
| Mb.LinesDealInOrder | mb.py:419-438 | From a cleared table, known codes deal their cards in order. The fourth code closes the round, counts the game and adds its winner to the road. |
| Mb.ClosedRoundIgnoresLines | mb.py:423 | While a round is over, serial lines change nothing. |
| Mb.Game.constructor | mb.py:35-57 | The initial globals. |
| Mb.Game.EvaluateRound | mb.py:285-362 | `evaluate_round` changes the globals as the `Evaluated` specification says. |
| Mb.Game.ResetBoard | mb.py:364-379 | `reset_board` changes the globals as the `Reset` specification says. |
| Mb.Game.ManualResult | mb.py:382-398 | `manual_result` changes the globals as the `Manual` specification says. |
| Mb.Game.ReadLine | mb.py:419-438 | One serial line changes the globals as the `Line` specification says. |
| MbMain.Doubled | mbmain.py:328-340 | Each result makes two file lines. |
| MbMain.DoubledPairs | mbmain.py:328-340 | File lines 2i and 2i+1 both hold result i. |
| MbMain.Evaluated | mbmain.py:283-344 | `evaluate_round` keeps the counter keys. With fewer than four cards dealt it returns early and changes nothing. |
| MbMain.WrittenManualHand | mbmain.py:362-374 | The placeholder deals as written have four cards. |
| MbMain.ManualHand | mbmain.py:367-372 | The corrected placeholder deals differ from the written ones only for PLAYER. |
| MbMain.WrittenManual | mbmain.py:362-374 | `manual_result` as written keeps the counter keys. |
| MbMain.Manual | mbmain.py:362-374 | `manual_result` with the corrected hand keeps the counter keys. |
| MbMain.Line | mbmain.py:394-409 | One serial line keeps the counter keys. |
| MbMain.Lines | mbmain.py:383-412 | A run of serial lines keeps the counter keys. |
| MbMain.LineDeals | mbmain.py:394-409 | A blank line, an unknown code or a closed round changes nothing. An accepted code joins a round holding fewer than four cards as its next card, and the fourth card has the round evaluated. |
| MbMain.LinesDealInOrder | mbmain.py:383-412 | From a cleared table, known codes deal their cards in order. The fourth code closes the round, counts the game and places its winner's bead. |
| MbMain.ClosedRoundIgnoresLines | mbmain.py:398 | While a round is over, serial lines change nothing. |
| MbMain.StartIsConsistent | mbmain.py:35-52 | The initial globals are consistent. |
| MbMain.EvaluatedRecords | mbmain.py:283-344 | A full deal closes the round, keeps the deal, counts one more game and places the winner's bead. It saves the bead twice and stays consistent: PLAYER + BANKER + TIE == `game_counter` == beads, and the file is every bead doubled. |
| MbMain.ResetKeepsConsistent | mbmain.py:346-360 | `reset_board` keeps the board consistent and leaves the beads and the file alone. |
| MbMain.ManualKeepsConsistent | mbmain.py:362-374 | A manual key keeps the board consistent. |
| MbMain.LineKeepsConsistent | mbmain.py:394-409 | A serial line keeps the board consistent. |
| MbMain.WrittenPlayerHandLoses | mbmain.py:367-368 | The PLAYER placeholder as written totals 0 against 3 and evaluates as a Banker win with no flags. |
| MbMain.WrittenPlayerKeyPlacesBanker | mbmain.py:362-374 | On an open round, the PLAYER key as written places a `B` bead. |
| MbMain.PlayerHand | mbmain.py:367-368 | The corrected PLAYER placeholder evaluates as 8 vs 3 with a Player pair. |
| MbMain.BankerHand | mbmain.py:369-370 | The BANKER placeholder evaluates as 2 vs 6 with both pairs. |
| MbMain.TieHand | mbmain.py:371-372 | The TIE placeholder evaluates as 8 vs 8 with both pairs. |
| MbMain.ManualHandOutcomes | mbmain.py:362-374 | With the corrected PLAYER hand: PLAYER gives 8 vs 3 with a natural, BANKER gives 2 vs 6 with a super six, and TIE gives 8 vs 8 with a natural. |
| MbMain.ManualRecordsRequest | mbmain.py:362-374 | On a closed round a manual key does nothing. On an open round it places the requested winner's bead, closes the round and counts one more game. |
| MbMain.Game.constructor | mbmain.py:35-52 | The initial globals and an empty plate. |
| MbMain.Game.EvaluateRound | mbmain.py:283-344 | `evaluate_round`, with `append_bead` and the second save, changes the state as the `Evaluated` specification says and keeps the plate well shaped. |
| MbMain.Game.ResetBoard | mbmain.py:346-360 | `reset_board` changes the state as the `Reset` specification says. |
| MbMain.Game.ManualResult | mbmain.py:362-374 | `manual_result` with the corrected hand changes the state as the `Manual` specification says. |
| MbMain.Game.ReadLine | mbmain.py:394-409 | One serial line changes the state as the `Line` specification says. |
| Bacarat.Evaluated | bacarat.py:160-207 | `evaluate_baccarat_round` keeps the deal and adds at most one line to the log, keeping the earlier ones. With fewer than four cards dealt it returns early and changes nothing. |
| Bacarat.Reset | bacarat.py:234-244 | `reset_all` assigns `game_over` false and empties the three card lists, keeping the log. |
| Bacarat.Manual | bacarat.py:248-272 | A manual key leaves the cards and both hands alone and adds at most one line to the log. `ManualLogsWinner` states the line. |
| Bacarat.Line | bacarat.py:286-316 | A serial line deals at most one card, keeping those dealt, and adds at most one line to the log. |
| Bacarat.Lines | bacarat.py:276-322 | A run of serial lines deals at most one card per line and adds at most one log line per line, keeping what was there. `LinesDealInOrder` and `ClosedRoundIgnoresLines` give the cases. |
| Bacarat.StartsAreCoherent | bacarat.py:92-97 | The start-up state as written and the corrected one both satisfy the round invariant. |
| Bacarat.OperationsKeepCoherent | bacarat.py:234-322 | `reset_all`, the manual keys and a serial line keep the round invariant: at most four cards, and a full deal is evaluated and shown. |
| Bacarat.EvaluatedLogsWinner | bacarat.py:160-207 | A full deal appends exactly one line, closes the round, and logs the winner with the higher total, or TIE. |
| Bacarat.ManualLogsWinner | bacarat.py:248-272 | On an open round a manual key closes it, leaves the cards alone and logs one line naming its winner. |
| Bacarat.ClosedRoundIgnoresLines | bacarat.py:298-303 | Unless the round is open, serial lines change nothing: not after a result, and not before `game_over` exists. |
| Bacarat.WrittenStartIgnoresInput | bacarat.py:92-97 | As written, before the first `/` every card and every manual key is ignored. |
| Bacarat.LinesDealInOrder | bacarat.py:298-316 | On an open round with nothing dealt, known codes deal in order, and the fourth has the round evaluated and logged. |
| Bacarat.StartPlaysFirstRound | bacarat.py:298-316 | From the corrected start, four known codes are dealt, evaluated and logged. |
| Bacarat.Game.constructor | bacarat.py:92-97 | The corrected start-up state. |
| Bacarat.Game.EvaluateBaccaratRound | bacarat.py:160-207 | The nested winner tests change the state as the `Evaluated` specification says. |
| Bacarat.Game.ResetBoard | bacarat.py:119-130 | Rebinds the three card lists to empty ones and changes nothing else. |
| Bacarat.Game.ResetAll | bacarat.py:234-244 | `reset_all` changes the state as the `Reset` specification says. |
| Bacarat.Game.ManualWin | bacarat.py:248-272 | `manual_win_player`, `manual_win_banker` and `manual_tie` change the state as the `Manual` specification says. |
| Bacarat.Game.ReadLine | bacarat.py:286-316 | One serial line changes the state as the `Line` specification says. |
| CustomMb.Evaluated | custommb.py:165-188 | `evaluate_round` keeps the deal and adds at most one line to the log, keeping the earlier ones. With fewer than four cards dealt it returns early and changes nothing. |
| CustomMb.Reset | custommb.py:190-198 | `reset_board` empties the three card lists and opens the round, keeping the log. |
| CustomMb.Manual | custommb.py:206-215 | A manual key leaves the cards and both hands alone and adds at most one line to the log. `ManualLogsWinner` states the line. |
| CustomMb.Line | custommb.py:225-236 | A serial line deals at most one card, keeping those dealt, and adds at most one line to the log. |
| CustomMb.Lines | custommb.py:218-239 | A run of serial lines deals at most one card per line and adds at most one log line per line, keeping what was there. `LinesDealInOrder` and `ClosedRoundIgnoresLines` give the cases. |
| CustomMb.StartIsCoherent | custommb.py:29-31 | The initial globals satisfy the round invariant. |
| CustomMb.OperationsKeepCoherent | custommb.py:190-236 | `reset_board`, `manual_result` and a serial line keep the round invariant. |
| CustomMb.EvaluatedLogsWinner | custommb.py:165-188 | A full deal appends exactly one line, closes the round, and logs the winner with the higher total, or TIE. |
| CustomMb.ManualLogsWinner | custommb.py:206-210 | On an open round a manual key closes it, leaves the cards alone and logs one line naming the requested winner. |
| CustomMb.ClosedRoundIgnoresLines | custommb.py:227 | While a round is over, serial lines change nothing. |
| CustomMb.LinesDealInOrder | custommb.py:227-236 | From a cleared open round, known codes deal in order. The fourth code, and only the fourth, has the round evaluated and logged. |
| CustomMb.Game.constructor | custommb.py:29-31 | The initial globals. |
| CustomMb.Game.EvaluateRound | custommb.py:165-188 | `evaluate_round` changes the state as the `Evaluated` specification says. |
| CustomMb.Game.ResetBoard | custommb.py:190-198 | `reset_board` changes the state as the `Reset` specification says. |
| CustomMb.Game.ManualResult | custommb.py:206-215 | `manual_result` changes the state as the `Manual` specification says. |
| CustomMb.Game.ReadLine | custommb.py:225-236 | One serial line changes the state as the `Line` specification says. |

## Left out

- Widgets and display: labels, popups, glow and slide animations, the pixel geometry of the bead plate and the cockroach road, and status texts. None of these has behaviour that a contract could state.
- Images: loading, caching and resizing of card images, which is PIL and Tk work on floating-point ratios.
- The serial port: opening it, `in_waiting`, `read`/`readline`, the one-second retry when it is absent, and byte decoding with `errors="ignore"`. Input is a string per read or per line.
- Threads, sleeps and `root.after` delays. Evaluation and `evaluate_for_match` run at once. A card that the reader thread appends between the fourth card and the delayed evaluation is not modelled.
- Loading `card_map.json`. The map is an immutable constructor parameter.
- File and console writes: `log_history`, `log_history_line`, `save_history_compact` and `print` become append-only sequences of lines. Write failures (swallowed by the source) and the text box are not modelled.
- Text primitives: `lower`, `isalnum` and `int()` are modelled on ASCII. Unicode case mapping, Unicode digits, and digit-group underscores in `int()` are not modelled; rank text never contains `_`. `basename` splits on `/` only.
- `on_close` and the thread start-up: process lifecycle only.
- canvasab.py's duplicate: the file repeats its module text after line 612, and line 612 itself is not valid Python. The logic is modelled once, from the copy at lines 116-612.
- The serial reader's exception handler: no path of the modelled core raises, except bacarat.py's unassigned `game_over`. That case is modelled as `None`.
- Cards.StemRank: its own contract is a length bound. What it returns is stated by the `CardFacts` lemmas for `suit_rank` names, alphanumeric names and short codes, not for arbitrary paths.
- Mb.Evaluated: its own contract keeps the counter keys and states the no-op before four cards are dealt. What a full deal records is stated by `Mb.EvaluatedRecords`.
- Mb.Manual: its own contract only keeps the counter keys. Its effect is stated by `Mb.ManualRecordsRequest` and `Mb.ManualKeepsConsistent`.
- Mb.Line: its own contract only keeps the counter keys. Its effect is stated by `Mb.LinesDealInOrder`, `Mb.ClosedRoundIgnoresLines` and `Mb.LineKeepsConsistent`.
- Mb.Lines: its own contract only keeps the counter keys. Its effect is stated by `Mb.LinesDealInOrder` and `Mb.ClosedRoundIgnoresLines`.
- MbMain.Evaluated: its own contract keeps the counter keys and states the no-op before four cards are dealt. What a full deal records is stated by `MbMain.EvaluatedRecords`.
- MbMain.Manual: its own contract only keeps the counter keys. Its effect is stated by `MbMain.ManualRecordsRequest` and `MbMain.ManualKeepsConsistent`.
- MbMain.WrittenManual: its own contract only keeps the counter keys. Its effect on the PLAYER key is stated by `MbMain.WrittenPlayerKeyPlacesBanker` and `MbMain.WrittenPlayerHandLoses`.
- MbMain.Line: its own contract only keeps the counter keys. Its effect is stated by `MbMain.LineDeals` and `MbMain.LineKeepsConsistent`.
- MbMain.Lines: its own contract only keeps the counter keys. Its effect is stated by `MbMain.LinesDealInOrder` and `MbMain.ClosedRoundIgnoresLines`.
- Bacarat.Evaluated: its own contract bounds how the deal and the log grow and states the no-op before four cards are dealt. The line a full deal logs is stated by `Bacarat.EvaluatedLogsWinner`.
- Bacarat.Manual: its own contract only bounds how the deal and the log grow. The line it logs is stated by `Bacarat.ManualLogsWinner`.
- Bacarat.Line: its own contract only bounds how the deal and the log grow. Its effect is stated by `Bacarat.LinesDealInOrder`, `Bacarat.ClosedRoundIgnoresLines` and `Bacarat.OperationsKeepCoherent`.
- Bacarat.Lines: its own contract only bounds how the deal and the log grow. Its effect is stated by `Bacarat.LinesDealInOrder` and `Bacarat.ClosedRoundIgnoresLines`.
- CustomMb.Evaluated: its own contract bounds how the deal and the log grow and states the no-op before four cards are dealt. The line a full deal logs is stated by `CustomMb.EvaluatedLogsWinner`.
- CustomMb.Manual: its own contract only bounds how the deal and the log grow. The line it logs is stated by `CustomMb.ManualLogsWinner`.
- CustomMb.Line: its own contract only bounds how the deal and the log grow. Its effect is stated by `CustomMb.LinesDealInOrder`, `CustomMb.ClosedRoundIgnoresLines` and `CustomMb.OperationsKeepCoherent`.
- CustomMb.Lines: its own contract only bounds how the deal and the log grow. Its effect is stated by `CustomMb.LinesDealInOrder` and `CustomMb.ClosedRoundIgnoresLines`.
- Cards.CardPoint: its own contract is a range. Its value for each `suit_rank` name is stated by a `CardFacts` lemma.
- Cards.UnderscorePoint: its own contract is a range. Its value for each `suit_rank` name is stated by a `CardFacts` lemma.
- Framer.Frame: its own contract says only that the leftover is the end of the buffer. What it hands on is stated by `FrameSettles`, `SplitLinesOfConcat` and `ChunkBoundariesMatter`.
- CanvasAb.OperationsKeepConsistent: the invariant is proved on the specification functions. The class methods are tied to those functions by their `ensures`.
- CanvasAb.BaharWinsThirdCard: stated for any three codes with the required ranks rather than for literal card names.
- MbMain.Game.ManualResult: deals the corrected PLAYER hand. The hand as written is `MbMain.WrittenManual` (see Findings).
- Bacarat.Game.constructor: starts from the corrected state with `game_over` false. The state as written is `Bacarat.WrittenStart` (see Findings).

## Findings

| source | as written | input that shows it | evidently intended | confidence | as-written member | corrected member |
|---|---|---|---|---|---|---|
| mbmain.py:367-368 | The PLAYER placeholder hand is `hearts_9, clubs_1` against `diamonds_2, spades_1`: Player totals (9+1) mod 10 = 0 and Banker totals 3. | Key `1` on an open round evaluates as BANKER and places a `B` bead. | A hand that Player wins, as in mb.py (`hearts_9, clubs_9`: 8 against 3). | not executed | MbMain.WrittenPlayerKeyPlacesBanker | MbMain.ManualRecordsRequest |
| bacarat.py:92-97 | `game_over` is never assigned at module level, so every read before the first `/` raises `NameError`. The serial reader swallows it and drops the card; the manual keys abort. | Four known card codes at start-up: none is dealt and nothing is logged. | `game_over = False` at start-up, as in the sibling front-ends. | not executed | Bacarat.WrittenStartIgnoresInput | Bacarat.StartPlaysFirstRound |

=== FILE: bacarat.dfy ===
/**
  bacarat.py: the plain two-card Baccarat board. Serial card codes fill a four-card
  deal that is evaluated by the text after the last `_` of each card name; the result
  is logged as an arrow line. Keys `1`/`2`/`3` log a manual result without dealing, and
  `/` resets the round.

  The `game_over` global is first assigned in `reset_all`, manual results and
  evaluation; until then every read of it raises `NameError`, which the serial reader
  swallows and the key handlers do not survive. `None` stands for that unassigned state.
*/
module Bacarat {
  import opened Wrappers
  import opened Text
  import opened Cards
  import opened Scoring
  import opened History

  /** The globals of bacarat.py and the lines logged so far. */
  datatype Board = Board(
    deal: seq<string>, player: seq<string>, banker: seq<string>,
    gameOver: Option<bool>, log: seq<string>)

  /** The globals as the file leaves them at start-up: `game_over` never assigned. */
  const WrittenStart: Board := Board([], [], [], None, [])

  /** The globals with `game_over` starting out false, as in the sibling front-ends. */
  const Start: Board := Board([], [], [], Some(false), [])

  /** `evaluate_baccarat_round`: nothing happens before four cards are in; otherwise the
      first four are shown as the two hands, the arrow line logged and the round closed. */
  function Evaluated(b: Board): (e: Board)
    ensures e.deal == b.deal && b.log <= e.log && |e.log| <= |b.log| + 1
    ensures |b.deal| < 4 ==> e == b
  {
    if |b.deal| < 4 then b
    else
      var p := Total(AfterUnderscore, b.deal[..2]);
      var q := Total(AfterUnderscore, b.deal[2..4]);
      b.(player := b.deal[..2], banker := b.deal[2..4],
         log := b.log + [ResultLine(b.deal[..2], b.deal[2..4], p, q, DecideNaturalsFirst(p, q))],
         gameOver := Some(true))
  }

  /** `reset_all`: `game_over` becomes false and `reset_board` starts empty card lists. */
  function Reset(b: Board): (e: Board)
    ensures e.log == b.log && e.gameOver == Some(false)
    ensures e.deal == [] && e.player == [] && e.banker == []
  {
    b.(deal := [], player := [], banker := [], gameOver := Some(false))
  }

  /** `manual_win_player`, `manual_win_banker` and `manual_tie`: on an open round the
      result is logged and the round closed, the dealt cards left as they are. */
  function Manual(b: Board, w: Winner): (e: Board)
    ensures e.deal == b.deal && e.player == b.player && e.banker == b.banker
    ensures b.log <= e.log && |e.log| <= |b.log| + 1
  {
    if b.gameOver == Some(false) then b.(gameOver := Some(true), log := b.log + [ManualLine(Name(w))])
    else b
  }

  /** One line of `read_serial_baccarat`. */
  function Line(b: Board, cardMap: map<string, string>, line: string): (e: Board)
    ensures b.deal <= e.deal && |e.deal| <= |b.deal| + 1
    ensures b.log <= e.log && |e.log| <= |b.log| + 1
  {
    var data := Strip(line);
    if data == "" || data !in cardMap || b.gameOver != Some(false) then b
    else
      var d := b.(deal := b.deal + [cardMap[data]]);
      if |d.deal| == 4 then Evaluated(d) else d
  }

  function Lines(b: Board, cardMap: map<string, string>, lines: seq<string>): (e: Board)
    ensures b.deal <= e.deal && |e.deal| <= |b.deal| + |lines|
    ensures b.log <= e.log && |e.log| <= |b.log| + |lines|
    decreases |lines|
  {
    if lines == [] then b
    else Line(Lines(b, cardMap, lines[..|lines| - 1]), cardMap, lines[|lines| - 1])
  }

  /** At most four cards are dealt and a full deal has been evaluated; the hands show a
      full deal and nothing otherwise; while `game_over` is unassigned nothing has been
      dealt or logged. */
  predicate Coherent(b: Board) {
    && |b.deal| <= 4
    && (|b.deal| == 4 ==> b.gameOver == Some(true))
    && (if |b.deal| == 4 then b.player == b.deal[..2] && b.banker == b.deal[2..4]
        else b.player == [] && b.banker == [])
    && (b.gameOver.None? ==> b.deal == [] && b.log == [])
  }

  lemma StartsAreCoherent()
    ensures Coherent(WrittenStart) && Coherent(Start)
  {
  }

  lemma OperationsKeepCoherent(b: Board, cardMap: map<string, string>, line: string, w: Winner)
    requires Coherent(b)
    ensures Coherent(Reset(b)) && Coherent(Manual(b, w)) && Coherent(Line(b, cardMap, line))
  {
  }

  /** An evaluation logs one line, and the winner read back from it is the one with the
      higher total: the natural test picks no other winner. */
  lemma EvaluatedLogsWinner(b: Board)
    requires |b.deal| >= 4
    ensures var e := Evaluated(b);
      var p := Total(AfterUnderscore, b.deal[..2]);
      var q := Total(AfterUnderscore, b.deal[2..4]);
      && |e.log| == |b.log| + 1 && e.log[..|b.log|] == b.log
      && AfterLast(e.log[|b.log|], Arrow) == " " + Name(Decide(p, q))
      && e.gameOver == Some(true)
  {
    var p := Total(AfterUnderscore, b.deal[..2]);
    var q := Total(AfterUnderscore, b.deal[2..4]);
    WinnerRulesAgree(p, q);
    ResultLineNamesWinner(b.deal[..2], b.deal[2..4], p, q, DecideNaturalsFirst(p, q));
  }

  /** A manual key on an open round logs a line naming its winner and closes the round
      without touching the cards. */
  lemma ManualLogsWinner(b: Board, w: Winner)
    requires b.gameOver == Some(false)
    ensures var e := Manual(b, w);
      && e.gameOver == Some(true) && e.deal == b.deal
      && |e.log| == |b.log| + 1 && AfterLast(e.log[|b.log|], Arrow) == " " + Name(w)
  {
    assert Arrow !in Name(w);
    ManualLineNamesWinner(Name(w));
  }

  /** Unless the round is open, serial lines change nothing: not after a result, and not
      at start-up, before `game_over` has been assigned. */
  lemma {:induction false} ClosedRoundIgnoresLines(b: Board, cardMap: map<string, string>, lines: seq<string>)
    requires b.gameOver != Some(false)
    ensures Lines(b, cardMap, lines) == b
  {
    if lines != [] {
      ClosedRoundIgnoresLines(b, cardMap, lines[..|lines| - 1]);
    }
  }

  /** As written, the board ignores every card and every manual key until `/` is pressed. */
  lemma WrittenStartIgnoresInput(cardMap: map<string, string>, lines: seq<string>, w: Winner)
    ensures Lines(WrittenStart, cardMap, lines) == WrittenStart
    ensures Manual(WrittenStart, w) == WrittenStart
  {
    ClosedRoundIgnoresLines(WrittenStart, cardMap, lines);
  }


  /** On an open round with nothing dealt, known codes deal their cards in order and the
      fourth has the round evaluated and logged. From the corrected start this is the
      first round; from the written start it needs a reset first. */
  lemma {:induction false} LinesDealInOrder(b: Board, cardMap: map<string, string>, lines: seq<string>)
    requires Coherent(b) && b.gameOver == Some(false) && b.deal == [] && |lines| <= 4
    requires forall i :: 0 <= i < |lines| ==> Strip(lines[i]) != "" && Strip(lines[i]) in cardMap
    ensures var e := Lines(b, cardMap, lines);
      && Coherent(e) && e.deal == CardsOf(cardMap, lines)
      && (|lines| < 4 ==> e.log == b.log && e.gameOver == Some(false))
      && (|lines| == 4 ==> e.gameOver == Some(true) && |e.log| == |b.log| + 1)
  {
    hide Strip, ResultLine;
    if lines != [] {
      var init := lines[..|lines| - 1];
      var last := lines[|lines| - 1];
      LinesDealInOrder(b, cardMap, init);
      var m := Lines(b, cardMap, init);
      assert Strip(last) != "" && Strip(last) in cardMap;
      assert CardsOf(cardMap, lines) == CardsOf(cardMap, init) + [cardMap[Strip(last)]];
    }
  }

  /** From the corrected start the first four known codes are dealt and evaluated. */
  lemma StartPlaysFirstRound(cardMap: map<string, string>, lines: seq<string>)
    requires |lines| == 4
    requires forall i :: 0 <= i < |lines| ==> Strip(lines[i]) != "" && Strip(lines[i]) in cardMap
    ensures var e := Lines(Start, cardMap, lines);
      e.deal == CardsOf(cardMap, lines) && e.gameOver == Some(true) && |e.log| == 1
  {
    LinesDealInOrder(Start, cardMap, lines);
  }

  /** The globals of bacarat.py as one object. */
  class Game {
    var deal: seq<string>
    var player: seq<string>
    var banker: seq<string>
    var gameOver: Option<bool>
    var log: seq<string>
    const cardMap: map<string, string>

    ghost function State(): Board
      reads this
    {
      Board(deal, player, banker, gameOver, log)
    }

    /** Start-up with `game_over` false; `WrittenStart` is the state the file really
        starts in. */
    constructor (cardMap: map<string, string>)
      ensures State() == Start && this.cardMap == cardMap
    {
      deal, player, banker := [], [], [];
      gameOver := Some(false);
      log := [];
      this.cardMap := cardMap;
    }

    /** `evaluate_baccarat_round`. */
    method EvaluateBaccaratRound()
      modifies this
      ensures State() == Evaluated(old(State()))
    {
      hide Total, ResultLine;
      if |deal| < 4 {
        return;
      }
      player := deal[0..2];
      banker := deal[2..4];
      var pTotal := Total(AfterUnderscore, player);
      var bTotal := Total(AfterUnderscore, banker);
      var winner;
      if IsNatural(pTotal) || IsNatural(bTotal) {
        winner := if pTotal > bTotal then Player else if bTotal > pTotal then Banker else Tie;
      } else {
        winner := if pTotal > bTotal then Player else if bTotal > pTotal then Banker else Tie;
      }
      log := log + [ResultLine(player, banker, pTotal, bTotal, winner)];
      gameOver := Some(true);
    }

    /** `reset_board`: rebinds the three card lists to new empty ones. */
    method ResetBoard()
      modifies this
      ensures State() == old(State()).(deal := [], player := [], banker := [])
    {
      deal, player, banker := [], [], [];
    }

    /** `reset_all`. */
    method ResetAll()
      modifies this
      ensures State() == Reset(old(State()))
    {
      gameOver := Some(false);
      ResetBoard();
    }

    /** `manual_win_player`, `manual_win_banker` and `manual_tie`, by the winner they log. */
    method ManualWin(w: Winner)
      modifies this
      ensures State() == Manual(old(State()), w)
    {
      if gameOver != Some(false) {
        return;
      }
      gameOver := Some(true);
      log := log + [ManualLine(Name(w))];
    }

    /** One pass of `read_serial_baccarat` that has read `line`. */
    method ReadLine(line: string)
      modifies this
      ensures State() == Line(old(State()), cardMap, line)
    {
      hide Evaluated;
      var data := Strip(line);
      if data == "" || data !in cardMap {
        return;
      }
      if gameOver != Some(false) {
        return;
      }
      deal := deal + [cardMap[data]];
      if |deal| == 4 {
        EvaluateBaccaratRound();
      }
    }
  }
}

=== FILE: beads.dfy ===
/**
  The bead plate of canvasab.py and mbmain.py: outcome symbols fill columns of
  `BEAD_ROWS` = 6 from top to bottom, then the next column, and every symbol placed
  is also appended to a compact history file, one symbol per line.
*/
module Beads {
  const Rows: nat := 6

  /** The columns read in fill order. */
  function Flatten(columns: seq<seq<string>>): seq<string> {
    if columns == [] then [] else columns[0] + Flatten(columns[1..])
  }

  lemma {:induction false} FlattenSnoc(columns: seq<seq<string>>, last: seq<string>)
    ensures Flatten(columns + [last]) == Flatten(columns) + last
  {
    if columns != [] {
      assert (columns + [last])[1..] == columns[1..] + [last];
      FlattenSnoc(columns[1..], last);
    }
  }

  /** Every column but the last is full, and the last holds one to six symbols. */
  ghost predicate Shaped(columns: seq<seq<string>>) {
    && (forall i :: 0 <= i < |columns| - 1 ==> |columns[i]| == Rows)
    && (columns != [] ==> 1 <= |columns[|columns| - 1]| <= Rows)
  }

  /** The plate that a sequence of outcomes fills: consecutive chunks of six, the last one
      possibly partial. */
  function Layout(s: seq<string>): (columns: seq<seq<string>>)
    decreases |s|
  {
    if s == [] then []
    else if |s| <= Rows then [s]
    else [s[..Rows]] + Layout(s[Rows..])
  }

  /** The layout is well shaped and reads back as the outcomes it was built from. */
  lemma {:induction false} LayoutIsShaped(s: seq<string>)
    ensures Shaped(Layout(s))
    ensures Flatten(Layout(s)) == s
    decreases |s|
  {
    if |s| > Rows {
      LayoutIsShaped(s[Rows..]);
      var rest := Layout(s[Rows..]);
      assert Layout(s)[1..] == rest;
      assert s == s[..Rows] + s[Rows..];
    }
  }

  /** The shape determines the plate: a well-shaped plate is the layout of its own symbols,
      so the columns are a function of the outcome sequence alone. */
  lemma {:induction false} ShapedIsLayout(columns: seq<seq<string>>)
    requires Shaped(columns)
    ensures columns == Layout(Flatten(columns))
    decreases |columns|
  {
    if |columns| > 1 {
      var rest := columns[1..];
      assert forall i :: 0 <= i < |rest| ==> rest[i] == columns[i + 1];
      ShapedIsLayout(rest);
      var s := Flatten(columns);
      assert s == columns[0] + Flatten(rest);
      assert |Flatten(rest)| > 0 by {
        assert Flatten(rest) == rest[0] + Flatten(rest[1..]);
      }
      assert s[..Rows] == columns[0] && s[Rows..] == Flatten(rest);
      assert columns == [columns[0]] + rest;
    } else if |columns| == 1 {
      assert Flatten(columns) == columns[0] + Flatten(columns[1..]);
      assert columns[1..] == [];
      assert Flatten(columns) == columns[0];
      assert columns == [columns[0]];
    }
  }

  /** How many times a symbol occurs in an outcome sequence. */
  function Count(s: seq<string>, x: string): nat {
    multiset(s)[x]
  }

  lemma CountSnoc(s: seq<string>, y: string, x: string)
    ensures Count(s + [y], x) == Count(s, x) + (if y == x then 1 else 0)
  {
    assert multiset(s + [y]) == multiset(s) + multiset{y};
  }

  /** The bead plate and the compact history file it writes to. */
  class BeadPlate {
    var columns: seq<seq<string>>
    var file: seq<string>

    ghost predicate Valid()
      reads this
    {
      Shaped(columns)
    }

    constructor ()
      ensures Valid() && columns == [] && file == []
    {
      columns := [];
      file := [];
    }

    /** `append_bead`: put the symbol under the last one, or at the top of a new column
        when the last column is full, then save it to the history file. */
    method AppendBead(symbol: string)
      requires Valid()
      modifies this
      ensures Valid()
      ensures Flatten(columns) == old(Flatten(columns)) + [symbol]
      ensures columns == Layout(old(Flatten(columns)) + [symbol])
      ensures file == old(file) + [symbol]
    {
      if columns == [] {
        columns := [[]];
      }
      var init := columns[..|columns| - 1];
      var last := columns[|columns| - 1];
      assert columns == init + [last];
      FlattenSnoc(init, last);
      if |last| < Rows {
        columns := init + [last + [symbol]];
        FlattenSnoc(init, last + [symbol]);
      } else {
        columns := init + [last] + [[symbol]];
        FlattenSnoc(init + [last], [symbol]);
      }
      SaveHistoryCompact(symbol);
      ShapedIsLayout(columns);
    }

    /** `save_history_compact`: one line per symbol. */
    method SaveHistoryCompact(symbol: string)
      modifies this
      ensures columns == old(columns)
      ensures file == old(file) + [symbol]
    {
      file := file + [symbol];
    }
  }
}

=== FILE: canvasab.dfy ===
/**
  The Andar Bahar table of canvasab.py. The first known card read from the serial port
  becomes the joker; every later card goes to ANDAR and BAHAR in turn, and the first
  one whose rank matches the joker's wins the round for its side. A win bumps that
  side's counter and the game counter and puts "A" or "B" on the bead plate; the round
  stays over until a reset. Manual keys can also declare the winner.

  `joker_card` is `None` or a card name and is only ever tested for truth, so it is a
  string here, with the empty string standing for both `None` and `""`.
*/
module CanvasAb {
  import opened Text
  import opened Cards
  import opened Beads
  import Framer
  import CardFacts

  /** The bead symbol of a win: "A" for ANDAR and "B" for any other side, as both
      `manual_result` and `evaluate_for_match` read the side. */
  function SideSymbol(side: string): (sym: string)
    ensures sym == "A" <==> side == "ANDAR"
    ensures sym == "A" || sym == "B"
  {
    if side == "ANDAR" then "A" else "B"
  }

  /** The side the next non-joker card is dealt to. */
  function NextSide(sideToggle: bool): string {
    if sideToggle then "ANDAR" else "BAHAR"
  }

  /** The globals of canvasab.py that the game logic reads and writes, with the beads in
      fill order and the lines written to `andar_history.txt`. */
  datatype Table = Table(
    joker: string, sideToggle: bool, gameOver: bool,
    andar: nat, bahar: nat, games: nat,
    beads: seq<string>, file: seq<string>)

  const Start := Table("", true, false, 0, 0, 0, [], [])

  /** The bookkeeping every reachable table keeps: each win is counted once for its side,
      once in the game counter, once on the bead plate and once in the file. */
  ghost predicate Consistent(t: Table) {
    && t.andar + t.bahar == t.games == |t.beads|
    && Count(t.beads, "A") == t.andar
    && Count(t.beads, "B") == t.bahar
    && t.file == t.beads
  }

  /** What a win does to the table, however it was reached. */
  function Win(t: Table, side: string): Table {
    var sym := SideSymbol(side);
    t.(gameOver := true,
       andar := if side == "ANDAR" then t.andar + 1 else t.andar,
       bahar := if side == "ANDAR" then t.bahar else t.bahar + 1,
       games := t.games + 1,
       beads := t.beads + [sym],
       file := t.file + [sym])
  }

  /** `manual_result`. */
  function Manual(t: Table, side: string): (r: Table)
    ensures r.gameOver && r.joker == t.joker && r.sideToggle == t.sideToggle
    ensures t.gameOver ==> r == t
    ensures !t.gameOver ==> r.games == t.games + 1 && r.beads == t.beads + [SideSymbol(side)]
  {
    if t.gameOver then t else Win(t, side)
  }

  /** `evaluate_for_match`. */
  function MatchCard(t: Table, card: string, side: string): (r: Table)
    ensures r.joker == t.joker && r.sideToggle == t.sideToggle
    ensures r != t <==> !t.gameOver && t.joker != "" && CardRank(card) == CardRank(t.joker)
    ensures r != t ==> r.gameOver && r.games == t.games + 1 && r.beads == t.beads + [SideSymbol(side)]
  {
    if t.gameOver || t.joker == "" then t
    else if CardRank(card) == CardRank(t.joker) then Win(t, side)
    else t
  }

  /** `reset_game`. */
  function Reset(t: Table): (r: Table)
    ensures r.andar == t.andar && r.bahar == t.bahar && r.games == t.games
    ensures r.beads == t.beads && r.file == t.file
    ensures r.joker == "" && r.sideToggle && !r.gameOver
  {
    t.(joker := "", sideToggle := true, gameOver := false)
  }

  /** `process_token`, with the evaluation it schedules taken to run at once. */
  function Token(t: Table, cardMap: map<string, string>, raw: string): (r: Table)
    ensures Strip(raw) == "" || Strip(raw) !in cardMap ==> r == t
    ensures r.games == t.games || r.games == t.games + 1
    ensures t.beads <= r.beads && |r.beads| - |t.beads| == r.games - t.games
    ensures t.joker != "" ==> r.joker == t.joker
  {
    var token := Strip(raw);
    if token == "" || token !in cardMap then t
    else
      var card := cardMap[token];
      if t.joker == "" then t.(joker := card)
      else MatchCard(t.(sideToggle := !t.sideToggle), card, NextSide(t.sideToggle))
  }

  /** Tokens handed to `process_token` one after another. */
  function Tokens(t: Table, cardMap: map<string, string>, raws: seq<string>): (r: Table)
    ensures t.games <= r.games <= t.games + |raws|
    ensures t.beads <= r.beads && |r.beads| - |t.beads| == r.games - t.games
    ensures t.joker != "" ==> r.joker == t.joker
    decreases |raws|
  {
    if raws == [] then t
    else Token(Tokens(t, cardMap, raws[..|raws| - 1]), cardMap, raws[|raws| - 1])
  }

  lemma StartIsConsistent()
    ensures Consistent(Start)
  {
  }

  lemma WinKeepsConsistent(t: Table, side: string)
    requires Consistent(t)
    ensures Consistent(Win(t, side))
  {
    CountSnoc(t.beads, SideSymbol(side), "A");
    CountSnoc(t.beads, SideSymbol(side), "B");
  }

  /** Every operation keeps the bookkeeping consistent: `andar_count + bahar_count ==
      game_counter`, which is the number of beads, and the beads record each side's wins. */
  lemma OperationsKeepConsistent(t: Table, cardMap: map<string, string>, raw: string, card: string, side: string)
    requires Consistent(t)
    ensures Consistent(Token(t, cardMap, raw))
    ensures Consistent(MatchCard(t, card, side))
    ensures Consistent(Manual(t, side))
    ensures Consistent(Reset(t))
  {
    hide Strip, CardRank;
    WinKeepsConsistent(t, side);
    var token := Strip(raw);
    if token != "" && token in cardMap && t.joker != "" {
      WinKeepsConsistent(t.(sideToggle := !t.sideToggle), NextSide(t.sideToggle));
    }
  }

  lemma {:induction false} TokensKeepConsistent(t: Table, cardMap: map<string, string>, raws: seq<string>)
    requires Consistent(t)
    ensures Consistent(Tokens(t, cardMap, raws))
    decreases |raws|
  {
    if raws != [] {
      TokensKeepConsistent(t, cardMap, raws[..|raws| - 1]);
      OperationsKeepConsistent(Tokens(t, cardMap, raws[..|raws| - 1]), cardMap, raws[|raws| - 1], "", "");
    }
  }

  /** Only a non-empty known token does anything; the first one while there is no joker
      becomes the joker and leaves the side and the round as they are. */
  lemma TokenJoker(t: Table, cardMap: map<string, string>, raw: string)
    ensures Strip(raw) == "" || Strip(raw) !in cardMap ==> Token(t, cardMap, raw) == t
    ensures Strip(raw) != "" && Strip(raw) in cardMap && t.joker == "" ==>
      Token(t, cardMap, raw) == t.(joker := cardMap[Strip(raw)])
  {
  }

  /** Once there is a joker, every known card goes to ANDAR when the toggle is set and to
      BAHAR otherwise, and flips the toggle, whether or not the round is already over. A
      card wins exactly when the round is open and its rank is the joker's, and then the
      bead is its side's symbol. */
  lemma TokenDealsAlternately(t: Table, cardMap: map<string, string>, raw: string)
    requires Strip(raw) != "" && Strip(raw) in cardMap && t.joker != ""
    ensures Token(t, cardMap, raw).sideToggle == !t.sideToggle
    ensures Token(t, cardMap, raw).joker == t.joker
    ensures Token(t, cardMap, raw).games == t.games + 1 <==>
      !t.gameOver && CardRank(cardMap[Strip(raw)]) == CardRank(t.joker)
    ensures Token(t, cardMap, raw).games != t.games + 1 ==>
      Token(t, cardMap, raw) == t.(sideToggle := !t.sideToggle)
    ensures Token(t, cardMap, raw).games == t.games + 1 ==>
      Token(t, cardMap, raw).beads == t.beads + [if t.sideToggle then "A" else "B"]
  {
  }

  /** A round is won at most once: once it is over, no sequence of tokens and no manual key
      changes the counters or the beads, and the round stays over. */
  lemma {:induction false} OverRoundIsFrozen(t: Table, cardMap: map<string, string>, raws: seq<string>, side: string)
    requires t.gameOver
    ensures Manual(t, side) == t
    ensures var u := Tokens(t, cardMap, raws);
      u.gameOver && u.games == t.games && u.andar == t.andar
      && u.bahar == t.bahar && u.beads == t.beads && u.file == t.file
    decreases |raws|
  {
    if raws != [] {
      OverRoundIsFrozen(t, cardMap, raws[..|raws| - 1], side);
    }
  }

  /** `reset_game` opens a new round with no joker and ANDAR next, keeps every counter and
      the beads, and a second reset changes nothing. */
  lemma ResetKeepsHistory(t: Table)
    ensures Reset(t).joker == "" && Reset(t).sideToggle && !Reset(t).gameOver
    ensures Reset(t).games == t.games && Reset(t).andar == t.andar && Reset(t).bahar == t.bahar
    ensures Reset(t).beads == t.beads && Reset(t).file == t.file
    ensures Reset(Reset(t)) == Reset(t)
  {
  }

  /** Proof helper: the last token of a run is handled after all the others. */
  lemma TokensSnoc(t: Table, cardMap: map<string, string>, raws: seq<string>, raw: string)
    ensures Tokens(t, cardMap, raws + [raw]) == Token(Tokens(t, cardMap, raws), cardMap, raw)
  {
    assert (raws + [raw])[..|raws|] == raws;
  }

  /** A round from the start: the first card becomes the joker, the second goes to ANDAR
      and misses, and the third goes to BAHAR and matches the joker's rank, so BAHAR has the
      one win, the plate holds one "B" and ANDAR is next again. */
  lemma BaharWinsThirdCard(m: map<string, string>, a: string, b: string, c: string)
    requires Strip(a) == a && Strip(b) == b && Strip(c) == c
    requires a != "" && b != "" && c != "" && a in m && b in m && c in m && m[a] != ""
    requires CardRank(m[b]) != CardRank(m[a]) && CardRank(m[c]) == CardRank(m[a])
    ensures var t := Tokens(Start, m, [a, b, c]);
      t.gameOver && t.andar == 0 && t.bahar == 1 && t.games == 1 && t.beads == ["B"]
      && t.sideToggle && t.joker == m[a]
  {
    hide Strip, CardRank;
    var t1 := Start.(joker := m[a]);
    var t2 := t1.(sideToggle := false);
    var t3 := Win(t2.(sideToggle := true), "BAHAR");
    assert Token(Start, m, a) == t1;
    assert Token(t1, m, b) == t2;
    assert Token(t2, m, c) == t3;
    TokensSnoc(Start, m, [], a);
    TokensSnoc(Start, m, [a], b);
    TokensSnoc(Start, m, [a, b], c);
    assert [] + [a] == [a] && [a] + [b] == [a, b] && [a, b] + [c] == [a, b, c];
  }

  /** The table of canvasab.py: its globals, the bead plate with its history file, the card
      map loaded at start-up and the serial reader's buffer. */
  class AndarBahar {
    var joker: string
    var sideToggle: bool
    var gameOver: bool
    var andarCount: nat
    var baharCount: nat
    var gameCounter: nat
    var buffer: string
    const plate: BeadPlate
    const cardMap: map<string, string>

    ghost function State(): Table
      reads this, plate
    {
      Table(joker, sideToggle, gameOver, andarCount, baharCount, gameCounter,
            Flatten(plate.columns), plate.file)
    }

    ghost predicate Valid()
      reads this, plate
    {
      plate.Valid()
    }

    constructor (cardMap: map<string, string>)
      ensures State() == Start && buffer == [] && this.cardMap == cardMap
      ensures Valid()
    {
      joker := "";
      sideToggle := true;
      gameOver := false;
      andarCount := 0;
      baharCount := 0;
      gameCounter := 0;
      buffer := [];
      var p := new BeadPlate();
      assert Flatten(p.columns) == [];
      plate := p;
      this.cardMap := cardMap;
    }

    /** `manual_result`: declare the side the winner unless the round is over. */
    method ManualResult(side: string)
      requires Valid()
      modifies this, plate
      ensures Valid() && State() == Manual(old(State()), side) && buffer == old(buffer)
    {
      hide Layout;
      if gameOver {
        return;
      }
      gameOver := true;
      if side == "ANDAR" {
        andarCount := andarCount + 1;
        plate.AppendBead("A");
      } else {
        baharCount := baharCount + 1;
        plate.AppendBead("B");
      }
      gameCounter := gameCounter + 1;
    }

    /** `evaluate_for_match`: the card wins for its side if the round is open, there is a
        joker and the ranks agree. */
    method EvaluateForMatch(card: string, side: string)
      requires Valid()
      modifies this, plate
      ensures Valid() && State() == MatchCard(old(State()), card, side) && buffer == old(buffer)
    {
      hide Layout, CardRank;
      if gameOver || joker == "" {
        return;
      }
      if CardRank(card) == CardRank(joker) {
        gameOver := true;
        var symbol := if side == "ANDAR" then "A" else "B";
        if side == "ANDAR" {
          andarCount := andarCount + 1;
        } else {
          baharCount := baharCount + 1;
        }
        plate.AppendBead(symbol);
        gameCounter := gameCounter + 1;
      }
    }

    /** `reset_game`. */
    method ResetGame()
      requires Valid()
      modifies this
      ensures Valid() && State() == Reset(old(State())) && buffer == old(buffer)
    {
      joker := "";
      sideToggle := true;
      gameOver := false;
    }

    /** `process_token`. */
    method ProcessToken(raw: string)
      requires Valid()
      modifies this, plate
      ensures Valid() && State() == Token(old(State()), cardMap, raw) && buffer == old(buffer)
    {
      var token := Strip(raw);
      if token == "" || token !in cardMap {
        return;
      }
      var cardName := cardMap[token];
      if joker == "" {
        joker := cardName;
      } else {
        var side := if sideToggle then "ANDAR" else "BAHAR";
        sideToggle := !sideToggle;
        EvaluateForMatch(cardName, side);
      }
    }

    /** One read of `serial_reader`: frame the data with the buffer and hand every token to
        `process_token` in order. */
    method SerialRead(data: string)
      requires Valid()
      modifies this, plate
      ensures Valid()
      ensures data == [] ==> State() == old(State()) && buffer == old(buffer)
      ensures data != [] ==>
        && State() == Tokens(old(State()), cardMap, Framer.Frame(old(buffer) + data, cardMap).tokens)
        && buffer == Framer.Frame(old(buffer) + data, cardMap).rest
    {
      var tokens, rest := Framer.Feed(buffer, data, cardMap);
      buffer := rest;
      ghost var start := State();
      for i := 0 to |tokens|
        invariant Valid() && buffer == rest
        invariant State() == Tokens(start, cardMap, tokens[..i])
      {
        assert tokens[..i + 1][..i] == tokens[..i];
        ProcessToken(tokens[i]);
      }
      assert tokens[..|tokens|] == tokens;
    }
  }
}

=== FILE: card_facts.dfy ===
/**
  What the rank and point rules of module `Cards` do with the card names the
  front-ends meet: ranks are suit-independent, short codes such as `AS` lose their
  whole suit-letter run, the two point tables agree on long names and part on short
  ones, and totals compose.
*/
module CardFacts {
  import opened Wrappers
  import opened Text
  import opened Cards

  /** The empty-name guard of canvasab.py changes nothing: both copies of `card_rank` agree
      on every name. */
  lemma RankGuardRedundant(cardName: string)
    ensures CardRank(cardName) == RankOf(cardName)
  {
  }

  lemma LowerKeepsUnderscores(s: string)
    ensures ('_' in Lower(s)) <==> ('_' in s)
  {
    if '_' in s {
      var i :| 0 <= i < |s| && s[i] == '_';
      assert Lower(s)[i] == '_';
    }
  }

  /** A name of the form `suit_rank` (no directory, no extension) has as its rank the
      lower-cased rank segment, whatever the suit: ranks are suit-independent. */
  lemma RankOfSuitName(suit: string, rank: string)
    requires '/' !in suit && '.' !in suit && '/' !in rank && '.' !in rank && '_' !in rank
    ensures RankOf(suit + "_" + rank) == Lower(rank)
  {
    var n := suit + "_" + rank;
    assert '/' !in n && '.' !in n;
    PlainNameIsItsOwnRoot(n);
    LowerAppend(suit + "_", rank);
    LowerAppend(suit, "_");
    assert Lower("_") == "_";
    LowerKeepsUnderscores(rank);
    assert Lower(n) == Lower(suit) + ['_'] + Lower(rank);
    LastIndexOfJoin(Lower(suit), '_', Lower(rank));
    assert Lower(n)[|suit| + 1..] == Lower(rank);
  }

  lemma {:induction false} RStripSuffix(r: string, t: string, cs: set<char>)
    requires r == [] || r[|r| - 1] !in cs
    requires forall c :: c in t ==> c in cs
    ensures RStripChars(r + t, cs) == r
  {
    if t != [] {
      var t' := t[..|t| - 1];
      assert (r + t)[..|r + t| - 1] == r + t';
      assert (r + t)[|r + t| - 1] == t[|t| - 1];
      RStripSuffix(r, t', cs);
    } else {
      assert r + t == r;
    }
  }

  /** A name made only of letters and digits skips the path and extension steps and the
      underscore branch: its rank is its lower-cased text less the trailing suit letters. */
  lemma RankOfAlnumName(n: string)
    requires forall i :: 0 <= i < |n| ==> IsAlnum(n[i])
    ensures RankOf(n) == RStripChars(Lower(n), SuitLetters)
  {
    assert '/' !in n && '.' !in n;
    PlainNameIsItsOwnRoot(n);
    var low := Lower(n);
    forall i | 0 <= i < |low| ensures IsAlnum(low[i]) {
      assert low[i] == LowerChar(n[i]);
    }
    assert '_' !in low;
    LastIndexIsLast(low, '_');
    AlnumsKeeps(low);
  }

  /** A short code such as `AS`, `KC`, `2H` or `10D` (an alphanumeric rank followed by suit
      letters in either case) has as its rank the lower-cased rank part: the whole trailing
      run of suit letters is stripped. */
  lemma RankOfShortCode(rank: string, suit: string)
    requires rank != [] && forall i :: 0 <= i < |rank| ==> IsAlnum(rank[i])
    requires LowerChar(rank[|rank| - 1]) !in SuitLetters
    requires forall i :: 0 <= i < |suit| ==> LowerChar(suit[i]) in SuitLetters
    ensures RankOf(rank + suit) == Lower(rank)
  {
    var n := rank + suit;
    forall i | 0 <= i < |n| ensures IsAlnum(n[i]) {
      if i >= |rank| {
        assert LowerChar(suit[i - |rank|]) in SuitLetters;
      }
    }
    RankOfAlnumName(n);
    LowerAppend(rank, suit);
    assert Lower(rank)[|rank| - 1] == LowerChar(rank[|rank| - 1]);
    forall c | c in Lower(suit) ensures c in SuitLetters {
      var i :| 0 <= i < |suit| && Lower(suit)[i] == c;
      assert LowerChar(suit[i]) in SuitLetters;
    }
    RStripSuffix(Lower(rank), Lower(suit), SuitLetters);
  }

  /** Two-character short codes such as `AS`, `AD`, `KC` or `2H`: a rank character that is
      not itself a suit letter, then one suit letter in either case. The rank is the
      lower-cased rank character alone, so `AS` and `AD` both give `a` and an ace matches
      an ace of any suit. */
  lemma ShortCodeRank(r: char, s: char)
    requires IsAlnum(r) && LowerChar(r) !in SuitLetters && LowerChar(s) in SuitLetters
    ensures RankOf([r, s]) == [LowerChar(r)]
  {
    assert [r, s] == [r] + [s];
    RankOfShortCode([r], [s]);
    assert Lower([r]) == [LowerChar(r)];
  }

  /** Both value tables give a digit rank 1..9 its face value, and 10 nothing. */
  lemma DigitRankPoints(d: nat)
    requires 1 <= d <= 9
    ensures RankPoint(NatToString(d)) == d && LongRankPoint(NatToString(d)) == d
    ensures RankPoint("10") == 0 && LongRankPoint("10") == 0
  {
    var s := NatToString(d);
    ParseNatToString(d);
    assert s == [DigitChar(d)];
    assert IsDigit(s[0]);
    assert s !in {"10", "jack", "queen", "king", "j", "q", "k", "ace", "a"};
  }

  /** The short forms are where the two tables part: mb.py counts `a` as an ace, while
      bacarat.py and custommb.py find it in neither table and `int()` rejects it, so it is
      worth 0 there. Case matters to the second table only: mb.py lower-cases `ACE` first. */
  lemma ShortFormsDiffer()
    ensures RankPoint("a") == 1 && LongRankPoint("a") == 0
    ensures RankPoint(Lower("ACE")) == 1 && LongRankPoint("ACE") == 0
  {
    ParseIntRejectsLetter("a");
    assert Lower("ACE") == "ace";
    ParseIntRejectsLetter("ACE");
  }

  /** Under the mb.py rule a `suit_rank` card is worth what its rank is worth, whatever the
      suit and the case of the rank. */
  lemma CardPointOfSuitName(suit: string, rank: string)
    requires '/' !in suit && '.' !in suit && '/' !in rank && '.' !in rank && '_' !in rank
    ensures CardPoint(suit + "_" + rank) == RankPoint(Lower(rank))
  {
    RankOfSuitName(suit, rank);
  }

  /** Under the bacarat.py rule a `suit_rank` card is worth what its rank text is worth,
      whatever the suit. */
  lemma UnderscorePointOfSuitName(suit: string, rank: string)
    requires '_' !in rank
    ensures UnderscorePoint(suit + "_" + rank) == LongRankPoint(rank)
  {
    assert suit + "_" + rank == suit + ['_'] + rank;
    AfterLastOfJoin(suit, '_', rank);
  }

  /** A `suit_d` card with a single digit 1..9 as its rank is worth that digit under either
      rule, and its `card_rank` is the digit. */
  lemma DigitCard(suit: string, d: nat)
    requires 1 <= d <= 9 && '/' !in suit && '.' !in suit
    ensures RankOf(suit + "_" + [DigitChar(d)]) == [DigitChar(d)]
    ensures CardPoint(suit + "_" + [DigitChar(d)]) == d
    ensures UnderscorePoint(suit + "_" + [DigitChar(d)]) == d
  {
    var r := [DigitChar(d)];
    assert NatToString(d) == r;
    RankOfSuitName(suit, r);
    assert Lower(r) == [LowerChar(DigitChar(d))] == r;
    DigitRankPoints(d);
    UnderscorePointOfSuitName(suit, r);
  }
}

=== FILE: cards.dfy ===
/**
  Rank and point resolution for the card names that `card_map` yields, such as
  `hearts_9` or `AS`: the `card_rank` helper shared by canvasab.py, mb.py and
  mbmain.py, the two `card_point` variants, and `compute_total`. The laws these
  definitions obey are in module `CardFacts`.
*/
module Cards {
  import opened Wrappers
  import opened Text

  /** The lower-case suit letters that `rstrip("shcd")` removes. */
  const SuitLetters: set<char> := {'s', 'h', 'c', 'd'}

  /** The rank read off a lower-cased file stem: the segment after the last `_` when there
      is one (found with `rfind`, which is what `"_" in name` and `split("_")[-1]` amount
      to), or else the alphanumerics with the trailing run of suit letters stripped. */
  function StemRank(name: string): (rank: string)
    ensures |rank| <= |name|
  {
    match LastIndex(name, '_')
    case Some(i) => name[i + 1..]
    case None => RStripChars(Alnums(name), SuitLetters)
  }

  /** `card_rank` as mb.py and mbmain.py write it: the rank of the lower-cased stem of the
      base name. */
  function RankOf(cardName: string): (rank: string)
    ensures |rank| <= |cardName|
  {
    StemRank(Lower(SplitExtRoot(BaseName(cardName))))
  }

  /** `card_rank` as canvasab.py writes it, with an explicit guard for the empty name. */
  function CardRank(cardName: string): (rank: string)
    ensures cardName == "" ==> rank == ""
  {
    if cardName == "" then "" else RankOf(cardName)
  }

  /** The rank names of the value tables are not numbers to `int()`. */
  lemma NamesAreNotNumbers(rank: string)
    ensures rank in {"jack", "queen", "king", "j", "q", "k", "ace", "a"} ==> ParseInt(rank) == None
  {
    if rank in {"jack", "queen", "king", "j", "q", "k", "ace", "a"} {
      ParseIntRejectsLetter(rank);
    }
  }

  /** The value table of mb.py and mbmain.py: 10 and the court cards are 0 (long or short
      names), the ace is 1 (long or short), numeric text is its value, anything else 0. */
  function RankPoint(rank: string): (v: int)
    ensures ParseInt(rank).Some? ==> v == if rank == "10" then 0 else ParseInt(rank).value
    ensures ParseInt(rank).None? ==> 0 <= v <= 1 && (v == 1 <==> rank in {"ace", "a"})
  {
    NamesAreNotNumbers(rank);
    if rank in {"10", "jack", "queen", "king", "j", "q", "k"} then 0
    else if rank in {"ace", "a"} then 1
    else match ParseInt(rank) case Some(v) => v case None => 0
  }

  /** `card_point` of mb.py and mbmain.py. */
  function CardPoint(cardName: string): (v: int)
    ensures (ParseInt(RankOf(cardName)).Some? ==> 0 <= ParseInt(RankOf(cardName)).value <= 9) ==> 0 <= v <= 9
  {
    RankPoint(RankOf(cardName))
  }

  /** The value table of bacarat.py and custommb.py: only the long names count, and case
      matters, so `a`, `j` or `ACE` fall through to `int()` and give 0. */
  function LongRankPoint(rank: string): (v: int)
    ensures ParseInt(rank).Some? ==> v == if rank == "10" then 0 else ParseInt(rank).value
    ensures ParseInt(rank).None? ==> 0 <= v <= 1 && (v == 1 <==> rank == "ace")
  {
    NamesAreNotNumbers(rank);
    if rank in {"jack", "queen", "king", "10"} then 0
    else if rank == "ace" then 1
    else match ParseInt(rank) case Some(v) => v case None => 0
  }

  /** `card_point_from_name` of bacarat.py, which custommb.py repeats as `card_point`:
      the value of the text after the last `_`, taken as it is. */
  function UnderscorePoint(cardName: string): (v: int)
    ensures (ParseInt(AfterLast(cardName, '_')).Some? ==> 0 <= ParseInt(AfterLast(cardName, '_')).value <= 9) ==> 0 <= v <= 9
  {
    LongRankPoint(AfterLast(cardName, '_'))
  }

  /** Which of the two point rules a front-end uses: mb.py and mbmain.py value a card by
      its `card_rank`, bacarat.py and custommb.py by the text after its last `_`. */
  datatype Rule = ByRank | AfterUnderscore

  function Point(rule: Rule, cardName: string): int {
    match rule
    case ByRank => CardPoint(cardName)
    case AfterUnderscore => UnderscorePoint(cardName)
  }

  /** The points of a pile of cards, one per card, in order. */
  function Points(rule: Rule, cards: seq<string>): (ps: seq<int>)
    ensures |ps| == |cards|
  {
    seq(|cards|, i requires 0 <= i < |cards| => Point(rule, cards[i]))
  }

  function Sum(ps: seq<int>): int {
    if ps == [] then 0 else Sum(ps[..|ps| - 1]) + ps[|ps| - 1]
  }

  /** `compute_total`: the sum of the points, reduced mod 10. Python's `%` by a positive
      number never goes negative, like Dafny's, so even a negative `int()` reading lands
      in 0..9. */
  function Total(rule: Rule, cards: seq<string>): (t: int)
    ensures 0 <= t <= 9
  {
    Sum(Points(rule, cards)) % 10
  }

  /** The card names that a run of serial lines stands for, in order: each line stripped
      and looked up in `card_map`. */
  function CardsOf(cardMap: map<string, string>, lines: seq<string>): (cards: seq<string>)
    requires forall i :: 0 <= i < |lines| ==> Strip(lines[i]) in cardMap
    ensures |cards| == |lines|
  {
    seq(|lines|, i requires 0 <= i < |lines| => cardMap[Strip(lines[i])])
  }
}

=== FILE: custommb.dfy ===
/**
  custommb.py: the customtkinter two-card Baccarat board. It deals and evaluates like
  bacarat.py (points by the text after the last `_`, an arrow line in the log), starts
  with `game_over` false, and takes any winner name for a manual result.
*/
module CustomMb {
  import opened Text
  import opened Cards
  import opened Scoring
  import opened History

  /** The globals of custommb.py and the lines logged so far. */
  datatype Board = Board(
    deal: seq<string>, player: seq<string>, banker: seq<string>,
    gameOver: bool, log: seq<string>)

  const Start: Board := Board([], [], [], false, [])

  /** `evaluate_round`: nothing happens before four cards are in; otherwise the first four
      are shown as the two hands, the arrow line logged and the round closed. */
  function Evaluated(b: Board): (e: Board)
    ensures e.deal == b.deal && b.log <= e.log && |e.log| <= |b.log| + 1
    ensures |b.deal| < 4 ==> e == b
  {
    if |b.deal| < 4 then b
    else
      var p := Total(AfterUnderscore, b.deal[..2]);
      var q := Total(AfterUnderscore, b.deal[2..4]);
      b.(player := b.deal[..2], banker := b.deal[2..4],
         log := b.log + [ResultLine(b.deal[..2], b.deal[2..4], p, q, DecideTieUnlessDifferent(p, q))],
         gameOver := true)
  }

  /** `reset_board`. */
  function Reset(b: Board): (e: Board)
    ensures e.log == b.log && e.gameOver == false
    ensures e.deal == [] && e.player == [] && e.banker == []
  {
    b.(deal := [], player := [], banker := [], gameOver := false)
  }

  /** `manual_result`: on an open round the requested name is logged and the round
      closed, the dealt cards left as they are. */
  function Manual(b: Board, winner: string): (e: Board)
    ensures e.deal == b.deal && e.player == b.player && e.banker == b.banker
    ensures b.log <= e.log && |e.log| <= |b.log| + 1
  {
    if b.gameOver then b else b.(gameOver := true, log := b.log + [ManualLine(winner)])
  }

  /** One line of `serial_reader`. */
  function Line(b: Board, cardMap: map<string, string>, line: string): (e: Board)
    ensures b.deal <= e.deal && |e.deal| <= |b.deal| + 1
    ensures b.log <= e.log && |e.log| <= |b.log| + 1
  {
    var raw := Strip(line);
    if raw == "" || !(raw in cardMap && !b.gameOver) then b
    else
      var d := b.(deal := b.deal + [cardMap[raw]]);
      if |d.deal| == 4 then Evaluated(d) else d
  }

  function Lines(b: Board, cardMap: map<string, string>, lines: seq<string>): (e: Board)
    ensures b.deal <= e.deal && |e.deal| <= |b.deal| + |lines|
    ensures b.log <= e.log && |e.log| <= |b.log| + |lines|
    decreases |lines|
  {
    if lines == [] then b
    else Line(Lines(b, cardMap, lines[..|lines| - 1]), cardMap, lines[|lines| - 1])
  }

  /** At most four cards are dealt and a full deal has been evaluated; the hands show a
      full deal and nothing otherwise. A manual result can close a round with fewer. */
  predicate Coherent(b: Board) {
    && |b.deal| <= 4
    && (|b.deal| == 4 ==> b.gameOver)
    && (if |b.deal| == 4 then b.player == b.deal[..2] && b.banker == b.deal[2..4]
        else b.player == [] && b.banker == [])
  }

  lemma StartIsCoherent()
    ensures Coherent(Start)
  {
  }

  lemma OperationsKeepCoherent(b: Board, cardMap: map<string, string>, line: string, winner: string)
    requires Coherent(b)
    ensures Coherent(Reset(b)) && Coherent(Manual(b, winner)) && Coherent(Line(b, cardMap, line))
  {
  }

  /** An evaluation logs one line, and the winner read back from it is the one with the
      higher total: testing for a difference first picks no other winner. */
  lemma EvaluatedLogsWinner(b: Board)
    requires |b.deal| >= 4
    ensures var e := Evaluated(b);
      var p := Total(AfterUnderscore, b.deal[..2]);
      var q := Total(AfterUnderscore, b.deal[2..4]);
      && |e.log| == |b.log| + 1 && e.log[..|b.log|] == b.log
      && AfterLast(e.log[|b.log|], Arrow) == " " + Name(Decide(p, q))
      && e.gameOver
  {
    var p := Total(AfterUnderscore, b.deal[..2]);
    var q := Total(AfterUnderscore, b.deal[2..4]);
    WinnerRulesAgree(p, q);
    ResultLineNamesWinner(b.deal[..2], b.deal[2..4], p, q, DecideTieUnlessDifferent(p, q));
  }

  /** A manual key on an open round logs a line naming what it was given and closes the
      round without touching the cards. */
  lemma ManualLogsWinner(b: Board, winner: string)
    requires !b.gameOver && Arrow !in winner
    ensures var e := Manual(b, winner);
      && e.gameOver && e.deal == b.deal
      && |e.log| == |b.log| + 1 && AfterLast(e.log[|b.log|], Arrow) == " " + winner
  {
    ManualLineNamesWinner(winner);
  }

  /** Once a round is over, serial lines change nothing until the table is reset. */
  lemma {:induction false} ClosedRoundIgnoresLines(b: Board, cardMap: map<string, string>, lines: seq<string>)
    requires b.gameOver
    ensures Lines(b, cardMap, lines) == b
  {
    if lines != [] {
      ClosedRoundIgnoresLines(b, cardMap, lines[..|lines| - 1]);
    }
  }


  /** On an open round with nothing dealt, known codes deal their cards in order and the
      fourth has the round evaluated and logged. */
  lemma {:induction false} LinesDealInOrder(b: Board, cardMap: map<string, string>, lines: seq<string>)
    requires Coherent(b) && !b.gameOver && b.deal == [] && |lines| <= 4
    requires forall i :: 0 <= i < |lines| ==> Strip(lines[i]) != "" && Strip(lines[i]) in cardMap
    ensures var e := Lines(b, cardMap, lines);
      && Coherent(e) && e.deal == CardsOf(cardMap, lines)
      && (|lines| < 4 ==> e.log == b.log && !e.gameOver)
      && (|lines| == 4 ==> e.gameOver && |e.log| == |b.log| + 1)
  {
    hide Strip, ResultLine;
    if lines != [] {
      var init := lines[..|lines| - 1];
      var last := lines[|lines| - 1];
      LinesDealInOrder(b, cardMap, init);
      assert Strip(last) != "" && Strip(last) in cardMap;
      assert CardsOf(cardMap, lines) == CardsOf(cardMap, init) + [cardMap[Strip(last)]];
    }
  }

  /** The globals of custommb.py as one object. */
  class Game {
    var deal: seq<string>
    var player: seq<string>
    var banker: seq<string>
    var gameOver: bool
    var log: seq<string>
    const cardMap: map<string, string>

    ghost function State(): Board
      reads this
    {
      Board(deal, player, banker, gameOver, log)
    }

    constructor (cardMap: map<string, string>)
      ensures State() == Start && this.cardMap == cardMap
    {
      deal, player, banker := [], [], [];
      gameOver := false;
      log := [];
      this.cardMap := cardMap;
    }

    /** `evaluate_round`. */
    method EvaluateRound()
      modifies this
      ensures State() == Evaluated(old(State()))
    {
      hide Total, ResultLine;
      if |deal| < 4 {
        return;
      }
      player := deal[..2];
      banker := deal[2..4];
      var pTotal, bTotal := Total(AfterUnderscore, player), Total(AfterUnderscore, banker);
      var winner := Tie;
      if pTotal != bTotal {
        winner := if pTotal > bTotal then Player else Banker;
      }
      log := log + [ResultLine(player, banker, pTotal, bTotal, winner)];
      gameOver := true;
    }

    /** `reset_board`. */
    method ResetBoard()
      modifies this
      ensures State() == Reset(old(State()))
    {
      deal, player, banker := [], [], [];
      gameOver := false;
    }

    /** `manual_result`. */
    method ManualResult(winner: string)
      modifies this
      ensures State() == Manual(old(State()), winner)
    {
      if gameOver {
        return;
      }
      gameOver := true;
      log := log + [ManualLine(winner)];
    }

    /** One pass of `serial_reader` that has read `line`. */
    method ReadLine(line: string)
      modifies this
      ensures State() == Line(old(State()), cardMap, line)
    {
      hide Evaluated;
      var raw := Strip(line);
      if raw == "" {
        return;
      }
      if raw in cardMap && !gameOver {
        deal := deal + [cardMap[raw]];
        if |deal| == 4 {
          EvaluateRound();
        }
      }
    }
  }
}

=== FILE: framer.dfy ===
/**
  The token framer inside canvasab.py's `serial_reader`: text read from the serial
  port accumulates in a buffer, a first loop cuts complete lines off its front, and a
  second loop then takes short unterminated card codes of 2, 3 or 4 characters that
  `card_map` knows. Each piece it cuts off is handed to `process_token`.
*/
module Framer {
  import opened Wrappers
  import opened Text

  predicate IsBreak(c: char) {
    c == '\n' || c == '\r'
  }

  predicate NoBreak(s: string) {
    forall i :: 0 <= i < |s| ==> !IsBreak(s[i])
  }

  /** The position of the first `\n` or `\r`, which is what the smaller of the two `find`
      results that are not -1 comes to. */
  function FirstBreak(s: string): (r: Option<nat>)
    ensures r.Some? ==> r.value < |s|
  {
    if s == [] then None
    else if IsBreak(s[0]) then Some(0)
    else match FirstBreak(s[1..])
      case None => None
      case Some(i) => Some(i + 1)
  }

  lemma {:induction false} FirstBreakIsFirst(s: string)
    ensures FirstBreak(s).None? <==> NoBreak(s)
    ensures FirstBreak(s).Some? ==> IsBreak(s[FirstBreak(s).value])
    ensures FirstBreak(s).Some? ==> NoBreak(s[..FirstBreak(s).value])
  {
    if s != [] && !IsBreak(s[0]) {
      FirstBreakIsFirst(s[1..]);
      if FirstBreak(s[1..]).Some? {
        var i := FirstBreak(s[1..]).value;
        assert s[..i + 1] == [s[0]] + s[1..][..i];
      } else {
        assert forall i :: 1 <= i < |s| ==> s[i] == s[1..][i - 1];
      }
    }
  }

  /** The test of the first loop: the buffer still holds a `\n` or a `\r`. */
  lemma BreakFound(s: string)
    ensures ('\n' in s || '\r' in s) <==> FirstBreak(s).Some?
  {
    FirstBreakIsFirst(s);
    if '\n' in s || '\r' in s {
      var i :| 0 <= i < |s| && IsBreak(s[i]);
    }
  }

  lemma {:induction false} FirstBreakOfConcat(a: string, b: string)
    requires FirstBreak(a).Some?
    ensures FirstBreak(a + b) == FirstBreak(a)
  {
    if !IsBreak(a[0]) {
      assert (a + b)[1..] == a[1..] + b;
      FirstBreakOfConcat(a[1..], b);
    }
  }

  /** What a framing loop has produced: the tokens handed on, in order, and the buffer left
      for the next read. */
  datatype Framed = Framed(tokens: seq<string>, rest: string)

  /** The line loop: cut the buffer after its first `\n` or `\r`, hand on the stripped text
      before it unless that is empty, and go on until no line break is left. */
  function SplitLines(s: string): (f: Framed)
    ensures |f.rest| <= |s|
    decreases |s|
  {
    match FirstBreak(s)
    case None => Framed([], s)
    case Some(i) =>
      var token := Strip(s[..i]);
      var tail := SplitLines(s[i + 1..]);
      Framed((if token == [] then [] else [token]) + tail.tokens, tail.rest)
  }

  lemma SuffixOfSuffix<T>(s: seq<T>, i: nat, r: seq<T>)
    requires i <= |s| && |r| <= |s| - i && r == s[i..][|s| - i - |r|..]
    ensures r == s[|s| - |r|..]
  {
    assert s[i..][|s| - i - |r|..] == s[|s| - |r|..];
  }

  lemma StripKeepsNoBreak(s: string)
    requires NoBreak(s)
    ensures NoBreak(Strip(s))
  {
    StripIsSlice(s);
    var t := Strip(s);
    var start := |s| - |StripLeft(s)|;
    forall k | 0 <= k < |t| ensures !IsBreak(t[k]) {
      assert t[k] == s[start + k];
    }
  }

  /** A token as the line loop hands it on: non-empty, already stripped and free of line
      breaks. */
  predicate CleanToken(t: string) {
    t != [] && Strip(t) == t && NoBreak(t)
  }

  /** Every line token is clean. */
  lemma {:induction false} SplitLinesTokens(s: string)
    ensures forall k :: 0 <= k < |SplitLines(s).tokens| ==> CleanToken(SplitLines(s).tokens[k])
    decreases |s|
  {
    hide Strip;
    match FirstBreak(s)
    case None =>
    case Some(i) =>
      FirstBreakIsFirst(s);
      var line := s[..i];
      var token := Strip(line);
      var tail := SplitLines(s[i + 1..]);
      var head := if token == [] then [] else [token];
      assert SplitLines(s) == Framed(head + tail.tokens, tail.rest);
      SplitLinesTokens(s[i + 1..]);
      if token != [] {
        StripIdempotent(line);
        StripKeepsNoBreak(line);
        assert CleanToken(token);
      }
      hide SplitLines, CleanToken;
      assert forall k :: 0 <= k < |head + tail.tokens| ==> CleanToken((head + tail.tokens)[k]) by {
        forall k | 0 <= k < |head + tail.tokens| ensures CleanToken((head + tail.tokens)[k]) {
          if k >= |head| {
            assert (head + tail.tokens)[k] == tail.tokens[k - |head|];
          }
        }
      }
  }

  /** What the line loop leaves holds no line break and is what follows the last one. */
  lemma {:induction false} SplitLinesRest(s: string)
    ensures NoBreak(SplitLines(s).rest)
    ensures SplitLines(s).rest == s[|s| - |SplitLines(s).rest|..]
    decreases |s|
  {
    hide Strip;
    match FirstBreak(s)
    case None =>
      FirstBreakIsFirst(s);
    case Some(i) =>
      var tail := SplitLines(s[i + 1..]);
      assert SplitLines(s).rest == tail.rest;
      SplitLinesRest(s[i + 1..]);
      SuffixOfSuffix(s, i + 1, tail.rest);
  }

  /** Proof helper: concatenation regrouped. */
  lemma AppendAssoc<T>(a: seq<T>, b: seq<T>, c: seq<T>)
    ensures a + (b + c) == (a + b) + c
  {
  }

  /** The line loop does not depend on where the reads split the stream: framing `a` and
      then the leftover followed by `b` gives the tokens of framing `a + b` at once. */
  lemma {:induction false} SplitLinesOfConcat(a: string, b: string)
    ensures SplitLines(a + b)
         == Framed(SplitLines(a).tokens + SplitLines(SplitLines(a).rest + b).tokens,
                   SplitLines(SplitLines(a).rest + b).rest)
    decreases |a|
  {
    hide Strip, SplitLines;
    match FirstBreak(a)
    case None =>
      SplitLinesStops(a);
      assert [] + SplitLines(a + b).tokens == SplitLines(a + b).tokens;
    case Some(i) =>
      FirstBreakOfConcat(a, b);
      SplitLinesStep(a);
      SplitLinesStep(a + b);
      SliceOfConcat(a, b, i);
      SplitLinesOfConcat(a[i + 1..], b);
      var head := if Strip(a[..i]) == [] then [] else [Strip(a[..i])];
      var ta := SplitLines(a[i + 1..]);
      var x := SplitLines(ta.rest + b);
      hide FirstBreak;
      AppendAssoc(head, ta.tokens, x.tokens);
  }

  /** Proof helper: cutting `a + b` inside `a`. */
  lemma SliceOfConcat<T>(a: seq<T>, b: seq<T>, i: nat)
    requires i < |a|
    ensures (a + b)[..i] == a[..i] && (a + b)[i + 1..] == a[i + 1..] + b
  {
  }

  /** How many characters the second loop takes from the front of the buffer: 2, 3 or 4,
      the first whose stripped prefix is a `card_map` key, or none. */
  function FixedLength(s: string, cardMap: map<string, string>): (r: Option<nat>)
    ensures r.Some? ==> 2 <= r.value <= 4 && r.value <= |s| && Strip(s[..r.value]) in cardMap
    ensures r.Some? ==> forall l :: 2 <= l < r.value && l <= |s| ==> Strip(s[..l]) !in cardMap
    ensures r.None? ==> forall l :: 2 <= l <= 4 && l <= |s| ==> Strip(s[..l]) !in cardMap
  {
    if |s| >= 2 && Strip(s[..2]) in cardMap then Some(2)
    else if |s| >= 3 && Strip(s[..3]) in cardMap then Some(3)
    else if |s| >= 4 && Strip(s[..4]) in cardMap then Some(4)
    else None
  }

  /** The fixed-length loop: take known card codes off the front until none fits. */
  function TakeFixed(s: string, cardMap: map<string, string>): (f: Framed)
    ensures |f.rest| <= |s|
    decreases |s|
  {
    match FixedLength(s, cardMap)
    case None => Framed([], s)
    case Some(l) =>
      var tail := TakeFixed(s[l..], cardMap);
      Framed([Strip(s[..l])] + tail.tokens, tail.rest)
  }

  /** The raw pieces the fixed-length loop cuts off, before stripping. */
  ghost function FixedPieces(s: string, cardMap: map<string, string>): seq<string>
    decreases |s|
  {
    match FixedLength(s, cardMap)
    case None => []
    case Some(l) => [s[..l]] + FixedPieces(s[l..], cardMap)
  }

  function Concat(pieces: seq<string>): string {
    if pieces == [] then [] else pieces[0] + Concat(pieces[1..])
  }

  lemma ConcatCons(p: string, ps: seq<string>)
    ensures Concat([p] + ps) == p + Concat(ps)
  {
    assert ([p] + ps)[1..] == ps;
  }

  lemma SplitAt<T>(s: seq<T>, l: nat, x: seq<T>, y: seq<T>)
    requires l <= |s| && s[l..] == x + y
    ensures s == (s[..l] + x) + y
  {
    assert s == s[..l] + s[l..];
  }

  /** No character is dropped: the buffer is the pieces taken followed by what is left,
      and nothing more fits at the front of what is left. */
  lemma {:induction false} TakeFixedConsumes(s: string, cardMap: map<string, string>)
    ensures s == Concat(FixedPieces(s, cardMap)) + TakeFixed(s, cardMap).rest
    ensures FixedLength(TakeFixed(s, cardMap).rest, cardMap).None?
    decreases |s|
  {
    hide Strip;
    match FixedLength(s, cardMap)
    case None =>
      TakeFixedStops(s, cardMap);
    case Some(l) =>
      TakeFixedStep(s, cardMap, l);
      assert FixedPieces(s, cardMap) == [s[..l]] + FixedPieces(s[l..], cardMap);
      TakeFixedConsumes(s[l..], cardMap);
      var ps := FixedPieces(s[l..], cardMap);
      var rest := TakeFixed(s[l..], cardMap).rest;
      hide TakeFixed, FixedPieces, FixedLength;
      ConcatCons(s[..l], ps);
      SplitAt(s, l, Concat(ps), rest);
  }

  /** Each piece is 2 to 4 characters whose stripped text is the token handed on, and every
      token is a `card_map` key. */
  lemma {:induction false} TakeFixedTokens(s: string, cardMap: map<string, string>)
    ensures |TakeFixed(s, cardMap).tokens| == |FixedPieces(s, cardMap)|
    ensures forall k :: 0 <= k < |FixedPieces(s, cardMap)| ==>
      && 2 <= |FixedPieces(s, cardMap)[k]| <= 4
      && TakeFixed(s, cardMap).tokens[k] == Strip(FixedPieces(s, cardMap)[k])
      && TakeFixed(s, cardMap).tokens[k] in cardMap
    decreases |s|
  {
    hide Strip;
    match FixedLength(s, cardMap)
    case None =>
    case Some(l) =>
      var tail := TakeFixed(s[l..], cardMap);
      var ps := FixedPieces(s[l..], cardMap);
      assert TakeFixed(s, cardMap).tokens == [Strip(s[..l])] + tail.tokens;
      assert FixedPieces(s, cardMap) == [s[..l]] + ps;
      TakeFixedTokens(s[l..], cardMap);
      hide TakeFixed, FixedPieces, FixedLength;
      forall k | 0 <= k < |[s[..l]] + ps|
        ensures 2 <= |([s[..l]] + ps)[k]| <= 4
        ensures ([Strip(s[..l])] + tail.tokens)[k] == Strip(([s[..l]] + ps)[k])
        ensures ([Strip(s[..l])] + tail.tokens)[k] in cardMap
      {
        if k > 0 {
          assert ([s[..l]] + ps)[k] == ps[k - 1];
          assert ([Strip(s[..l])] + tail.tokens)[k] == tail.tokens[k - 1];
        }
      }
  }

  /** One pass of `serial_reader` over the buffer: the line loop, then the fixed-length
      loop on what the line loop left. */
  function Frame(s: string, cardMap: map<string, string>): (f: Framed)
    ensures |f.rest| <= |s| && f.rest == s[|s| - |f.rest|..]
  {
    var lines := SplitLines(s);
    var fixed := TakeFixed(lines.rest, cardMap);
    FrameLeavesEnd(s, cardMap);
    Framed(lines.tokens + fixed.tokens, fixed.rest)
  }

  /** Proof helper: the two loops together leave an end of the buffer. */
  lemma FrameLeavesEnd(s: string, cardMap: map<string, string>)
    ensures var r := TakeFixed(SplitLines(s).rest, cardMap).rest; |r| <= |s| && r == s[|s| - |r|..]
  {
    hide Strip;
    var lines := SplitLines(s);
    SplitLinesRest(s);
    TakeFixedRest(lines.rest, cardMap);
    hide SplitLines, TakeFixed;
    SuffixChain(s, lines.rest, TakeFixed(lines.rest, cardMap).rest);
  }

  /** Proof helper: an end of an end of `s` is an end of `s`. */
  lemma SuffixChain<T>(s: seq<T>, a: seq<T>, b: seq<T>)
    requires |a| <= |s| && a == s[|s| - |a|..] && |b| <= |a| && b == a[|a| - |b|..]
    ensures b == s[|s| - |b|..]
  {
    SuffixOfSuffix(s, |s| - |a|, b);
  }

  /** Proof helper: what the fixed-length loop leaves is the end of its input. */
  lemma TakeFixedRest(s: string, cardMap: map<string, string>)
    ensures TakeFixed(s, cardMap).rest == s[|s| - |TakeFixed(s, cardMap).rest|..]
  {
    TakeFixedConsumes(s, cardMap);
  }

  lemma NoBreakOfSuffix(x: string, c: string, r: string)
    requires NoBreak(x) && x == c + r
    ensures NoBreak(r)
  {
    forall k | 0 <= k < |r| ensures !IsBreak(r[k]) {
      assert r[k] == x[|c| + k];
    }
  }

  /** What a pass leaves holds no line break and starts with no known code, so a second pass
      over it, as after an empty read, hands on nothing and leaves it as it is. */
  lemma FrameSettles(s: string, cardMap: map<string, string>)
    ensures NoBreak(Frame(s, cardMap).rest)
    ensures FixedLength(Frame(s, cardMap).rest, cardMap).None?
    ensures Frame(Frame(s, cardMap).rest, cardMap) == Framed([], Frame(s, cardMap).rest)
  {
    hide Strip;
    var lines := SplitLines(s);
    SplitLinesRest(s);
    TakeFixedConsumes(lines.rest, cardMap);
    var r := TakeFixed(lines.rest, cardMap).rest;
    assert Frame(s, cardMap).rest == r;
    hide SplitLines, TakeFixed, FixedLength;
    NoBreakOfSuffix(lines.rest, Concat(FixedPieces(lines.rest, cardMap)), r);
    FirstBreakIsFirst(r);
    SplitLinesStops(r);
    TakeFixedStops(r, cardMap);
  }

  /** Where the reads split the stream matters once the fixed-length loop is involved: with
      `AS` a known code, the line `ASX` arriving whole is one token, but arriving as `AS` and
      then `X` and the line break it is two. */
  lemma ChunkBoundariesMatter()
    ensures Frame("ASX\n", map["AS" := "spades_ace"]).tokens == ["ASX"]
    ensures Frame("AS", map["AS" := "spades_ace"]) == Framed(["AS"], "")
    ensures Frame("X\n", map["AS" := "spades_ace"]).tokens == ["X"]
  {
    WholeLineFrame();
    CodeOnlyFrame();
    TailLineFrame();
  }

  /** The first case of the example above: the whole line in one chunk. */
  lemma WholeLineFrame()
    ensures Frame("ASX\n", map["AS" := "spades_ace"]).tokens == ["ASX"]
  {
    assert FirstBreak("ASX\n") == Some(3);
    assert "ASX\n"[..3] == "ASX" && "ASX\n"[4..] == "";
    assert Strip("ASX") == "ASX";
    assert SplitLines("") == Framed([], "");
    assert SplitLines("ASX\n") == Framed(["ASX"], "");
  }

  /** The second case: a chunk holding only the known code. */
  lemma CodeOnlyFrame()
    ensures Frame("AS", map["AS" := "spades_ace"]) == Framed(["AS"], "")
  {
    var m := map["AS" := "spades_ace"];
    assert FirstBreak("AS") == None;
    assert "AS"[..2] == "AS" && "AS"[2..] == "";
    assert Strip("AS") == "AS";
    assert FixedLength("AS", m) == Some(2);
    assert TakeFixed("", m) == Framed([], "");
    assert TakeFixed("AS", m) == Framed(["AS"], "");
  }

  /** The third case: the rest of the line in the next chunk. */
  lemma TailLineFrame()
    ensures Frame("X\n", map["AS" := "spades_ace"]).tokens == ["X"]
  {
    assert FirstBreak("X\n") == Some(1);
    assert "X\n"[..1] == "X" && "X\n"[2..] == "";
    assert Strip("X") == "X";
    assert SplitLines("X\n") == Framed(["X"], "");
  }

  /** One turn of the line loop, as the loop below takes it. */
  lemma SplitLinesStep(s: string)
    requires FirstBreak(s).Some?
    ensures var i := FirstBreak(s).value; var token := Strip(s[..i]);
      SplitLines(s) == Framed((if token == [] then [] else [token]) + SplitLines(s[i + 1..]).tokens,
                              SplitLines(s[i + 1..]).rest)
  {
  }

  /** One turn of the fixed-length loop, as the loop below takes it. */
  lemma TakeFixedStep(s: string, cardMap: map<string, string>, l: nat)
    requires FixedLength(s, cardMap) == Some(l)
    ensures TakeFixed(s, cardMap) == Framed([Strip(s[..l])] + TakeFixed(s[l..], cardMap).tokens,
                                            TakeFixed(s[l..], cardMap).rest)
  {
  }

  lemma SplitLinesStops(s: string)
    requires FirstBreak(s).None?
    ensures SplitLines(s) == Framed([], s)
  {
  }

  lemma TakeFixedStops(s: string, cardMap: map<string, string>)
    requires FixedLength(s, cardMap).None?
    ensures TakeFixed(s, cardMap) == Framed([], s)
  {
  }

  /** The first `while` loop of `serial_reader`. */
  method DrainLines(buffer: string) returns (tokens: seq<string>, rest: string)
    ensures Framed(tokens, rest) == SplitLines(buffer)
  {
    hide Strip, SplitLines;
    tokens := [];
    rest := buffer;
    while '\n' in rest || '\r' in rest
      invariant SplitLines(buffer) == Framed(tokens + SplitLines(rest).tokens, SplitLines(rest).rest)
      decreases |rest|
    {
      BreakFound(rest);
      var idx := FirstBreak(rest).value;
      var token := Strip(rest[..idx]);
      SplitLinesStep(rest);
      AppendAssoc(tokens, if token == [] then [] else [token], SplitLines(rest[idx + 1..]).tokens);
      rest := rest[idx + 1..];
      if token != [] {
        tokens := tokens + [token];
      }
    }
    BreakFound(rest);
    SplitLinesStops(rest);
  }

  /** The second `while` loop of `serial_reader`, with its `for L in (2, 3, 4)`. */
  method TakeCodes(buffer: string, cardMap: map<string, string>) returns (tokens: seq<string>, rest: string)
    ensures Framed(tokens, rest) == TakeFixed(buffer, cardMap)
  {
    hide Strip, TakeFixed;
    tokens := [];
    rest := buffer;
    while |rest| >= 2
      invariant TakeFixed(buffer, cardMap) == Framed(tokens + TakeFixed(rest, cardMap).tokens, TakeFixed(rest, cardMap).rest)
      decreases |rest|
    {
      var taken := false;
      ghost var before, done := rest, tokens;
      for l := 2 to 5
        invariant !taken && rest == before && tokens == done
        invariant forall j :: 2 <= j < l && j <= |rest| ==> Strip(rest[..j]) !in cardMap
      {
        if |rest| >= l {
          var candidate := Strip(rest[..l]);
          if candidate in cardMap {
            assert FixedLength(rest, cardMap) == Some(l);
            TakeFixedStep(rest, cardMap, l);
            AppendAssoc(tokens, [candidate], TakeFixed(rest[l..], cardMap).tokens);
            tokens := tokens + [candidate];
            rest := rest[l..];
            taken := true;
            break;
          }
        }
      }
      if !taken {
        break;
      }
    }
    assert FixedLength(rest, cardMap).None?;
    TakeFixedStops(rest, cardMap);
  }

  /** One read of `serial_reader`: an empty read changes nothing; otherwise the data joins
      the buffer and both loops run over it. */
  method Feed(buffer: string, data: string, cardMap: map<string, string>)
    returns (tokens: seq<string>, rest: string)
    ensures data == [] ==> tokens == [] && rest == buffer
    ensures data != [] ==> Framed(tokens, rest) == Frame(buffer + data, cardMap)
  {
    if data == [] {
      return [], buffer;
    }
    var lineTokens, afterLines := DrainLines(buffer + data);
    var codeTokens;
    codeTokens, rest := TakeCodes(afterLines, cardMap);
    tokens := lineTokens + codeTokens;
  }
}

=== FILE: history.dfy ===
/**
  The history lines the front-ends write after a round: mb.py's numbered summary with
  its bracketed list of derived outcomes, and the arrow lines of bacarat.py and
  custommb.py for an evaluated or a manual result.
*/
module History {
  import opened Text
  import opened Scoring
  import opened Wrappers

  /** The derived outcomes mb.py lists after a summary, in the order it tests them. */
  function Extras(o: Outcome): (tags: seq<string>)
    ensures |tags| <= 4
  {
    (if o.pPair then ["PLAYER_PAIR"] else [])
      + (if o.bPair then ["BANKER_PAIR"] else [])
      + (if o.natural then ["NATURAL"] else [])
      + (if o.superSix then ["SUPER_SIX"] else [])
  }

  /** The tags of a summary are exactly the counters the round bumps besides its winner's. */
  lemma ExtrasAreBumpedFlags(o: Outcome, k: string)
    ensures k in Extras(o) <==> k in Bumped(o) && k != Name(o.winner)
  {
  }

  /** The bracketed list mb.py appends to a summary when there are derived outcomes. */
  function TagList(tags: seq<string>): (t: string)
    ensures t == [] <==> tags == []
  {
    if tags == [] then "" else " [" + Join(", ", tags) + "]"
  }

  /** The middle of a summary: both hands with their totals, from the colon after the
      game number up to the arrow. */
  function Scores(player: seq<string>, banker: seq<string>, o: Outcome): (t: string)
    requires 0 <= o.pTotal && 0 <= o.bTotal
    ensures t != [] && t[0] == ':'
  {
    ": Player " + Join(",", player) + " (" + NatToString(o.pTotal) + ") vs Banker "
      + Join(",", banker) + " (" + NatToString(o.bTotal) + ") "
  }

  /** The summary mb.py logs for game number `games + 1`. */
  function Summary(games: nat, player: seq<string>, banker: seq<string>, o: Outcome): (line: string)
    requires 0 <= o.pTotal && 0 <= o.bTotal
    ensures line != []
  {
    "Game " + NatToString(games + 1) + Scores(player, banker, o) + "=> " + Name(o.winner)
      + TagList(Extras(o))
  }

  /** A summary ends in a bracket exactly when the round had a pair, a natural or a super
      six: the winner's name never ends in one. */
  lemma SummaryTagged(games: nat, player: seq<string>, banker: seq<string>, o: Outcome)
    requires 0 <= o.pTotal && 0 <= o.bTotal
    ensures var line := Summary(games, player, banker, o);
      line[|line| - 1] == ']' <==> o.pPair || o.bPair || o.natural || o.superSix
  {
    hide Scores;
    var head := "Game " + NatToString(games + 1) + Scores(player, banker, o) + "=> " + Name(o.winner);
    var name := Name(o.winner);
    var tags := TagList(Extras(o));
    assert Summary(games, player, banker, o) == head + tags;
    assert head[|head| - 1] == name[|name| - 1];
    assert Extras(o) == [] <==> !(o.pPair || o.bPair || o.natural || o.superSix);
    if tags != [] {
      assert (head + tags)[|head + tags| - 1] == tags[|tags| - 1];
    }
  }

  /** The game number can be read back from a summary, whatever the card names: it is the
      decimal field between `Game ` and the colon after it. */
  lemma SummaryNamesGame(games: nat, player: seq<string>, banker: seq<string>, o: Outcome)
    requires 0 <= o.pTotal && 0 <= o.bTotal
    ensures var line := Summary(games, player, banker, o); var n := |NatToString(games + 1)|;
      && line[..5] == "Game " && line[5 + n] == ':' && ParseInt(line[5..5 + n]) == Some(games + 1)
  {
    hide Scores, NatToString, Join, Name, TagList, Extras;
    var num := NatToString(games + 1);
    var mid := Scores(player, banker, o);
    var line := Summary(games, player, banker, o);
    assert line == "Game " + num + (mid + "=> " + Name(o.winner) + TagList(Extras(o)));
    assert line[5..5 + |num|] == num;
    ParseNatToString(games + 1);
  }

  /** Neither a winner's name nor a tag list holds a `>`. */
  lemma TailAvoidsArrowHead(o: Outcome)
    ensures '>' !in " " + Name(o.winner) + TagList(Extras(o))
  {
    var tags := Extras(o);
    assert forall i :: 0 <= i < |tags| ==> '>' !in tags[i];
    JoinAvoids(", ", tags, '>');
  }

  /** The winner can be read back from a summary, whatever the card names: what follows
      the last `>` is the winner's name and then the list of tags. */
  lemma SummaryNamesWinner(games: nat, player: seq<string>, banker: seq<string>, o: Outcome)
    requires 0 <= o.pTotal && 0 <= o.bTotal
    ensures AfterLast(Summary(games, player, banker, o), '>') == " " + Name(o.winner) + TagList(Extras(o))
  {
    hide Scores, NatToString, Join, Name, TagList, Extras;
    var tail := " " + Name(o.winner) + TagList(Extras(o));
    var head := "Game " + NatToString(games + 1) + Scores(player, banker, o) + "=";
    TailAvoidsArrowHead(o);
    assert Summary(games, player, banker, o) == head + ['>'] + tail;
    AfterLastOfJoin(head, '>', tail);
  }

  /** The right arrow that bacarat.py and custommb.py put before the winner. */
  const Arrow: char := '→'

  /** The line bacarat.py and custommb.py log for an evaluated round. */
  function ResultLine(player: seq<string>, banker: seq<string>, p: nat, b: nat, w: Winner): (line: string)
    ensures line != []
  {
    "Player: " + Join(",", player) + " (" + NatToString(p) + ") | Banker: "
      + Join(",", banker) + " (" + NatToString(b) + ") " + [Arrow] + " " + Name(w)
  }

  /** The line bacarat.py and custommb.py log for a manual result. */
  function ManualLine(winner: string): (line: string)
    ensures line != []
  {
    "Manual result " + [Arrow] + " " + winner
  }

  /** The winner can be read back from a result line: it is what follows the last arrow,
      whatever the card names. */
  lemma ResultLineNamesWinner(player: seq<string>, banker: seq<string>, p: nat, b: nat, w: Winner)
    ensures AfterLast(ResultLine(player, banker, p, b, w), Arrow) == " " + Name(w)
  {
    var head := "Player: " + Join(",", player) + " (" + NatToString(p) + ") | Banker: "
      + Join(",", banker) + " (" + NatToString(b) + ") ";
    assert ResultLine(player, banker, p, b, w) == head + [Arrow] + (" " + Name(w));
    AfterLastOfJoin(head, Arrow, " " + Name(w));
  }

  /** The same holds for a manual line, provided the requested name has no arrow in it. */
  lemma ManualLineNamesWinner(winner: string)
    requires Arrow !in winner
    ensures AfterLast(ManualLine(winner), Arrow) == " " + winner
  {
    assert ManualLine(winner) == "Manual result " + [Arrow] + (" " + winner);
    AfterLastOfJoin("Manual result ", Arrow, " " + winner);
  }
}

=== FILE: mb.dfy ===
/**
  mb.py: the two-card Baccarat board. Serial card codes fill a four-card deal; a full
  deal is evaluated into a winner and derived outcomes, which bump the counters, extend
  the cockroach road and add a numbered summary to the history log. Keys `1`/`2`/`3`
  evaluate a placeholder hand instead, and `/` clears the table for the next round.
*/
module Mb {
  import opened Text
  import opened Cards
  import opened Scoring
  import opened Rounds
  import opened History
  import opened Beads

  /** The globals of mb.py: the round, the cockroach road (`cockroach_sequence`) and the
      lines the history log has received. */
  datatype Board = Board(round: Round, road: seq<string>, log: seq<string>)

  const Start: Board := Board(Fresh, [], [])

  /** `evaluate_round`: nothing happens before four cards are in; otherwise the first four
      are settled and the winner's symbol and the summary recorded. */
  function Evaluated(b: Board): (e: Board)
    requires CounterKeys <= b.round.counters.Keys
    ensures e.round.counters.Keys == b.round.counters.Keys
    ensures |b.round.deal| < 4 ==> e == b
  {
    if |b.round.deal| < 4 then b
    else
      var r := b.round;
      var o := Evaluate(r.deal);
      Board(Settle(r), b.road + [Short(o.winner)], b.log + [Summary(r.games, r.deal[..2], r.deal[2..4], o)])
  }

  /** `reset_board`. */
  function Reset(b: Board): (e: Board)
    ensures e.road == b.road && e.log == b.log
    ensures e.round.counters == b.round.counters && e.round.games == b.round.games
    ensures !e.round.gameOver && e.round.deal == []
  {
    b.(round := Clear(b.round))
  }

  /** The placeholder deal `manual_result` evaluates for a requested winner. */
  function ManualHand(winner: string): (hand: seq<string>)
    ensures |hand| == 4
  {
    if winner == "PLAYER" then ["hearts_9", "clubs_9", "diamonds_2", "spades_1"]
    else if winner == "BANKER" then ["hearts_2", "clubs_1", "diamonds_8", "spades_8"]
    else ["hearts_4", "clubs_4", "diamonds_4", "spades_4"]
  }

  /** `manual_result`: ignored while a round is over, otherwise the placeholder hand is
      dealt and evaluated. */
  function Manual(b: Board, winner: string): (e: Board)
    requires CounterKeys <= b.round.counters.Keys
    ensures e.round.counters.Keys == b.round.counters.Keys
  {
    if b.round.gameOver then b else Evaluated(b.(round := Place(b.round, ManualHand(winner))))
  }

  /** One line of `serial_reader`: an accepted code deals its card, and the fourth card
      has the round evaluated. */
  function Line(b: Board, cardMap: map<string, string>, line: string): (e: Board)
    requires CounterKeys <= b.round.counters.Keys
    ensures e.round.counters.Keys == b.round.counters.Keys
  {
    var raw := Strip(line);
    if !Accepts(b.round, cardMap, raw) then b
    else
      var d := b.(round := b.round.(deal := b.round.deal + [cardMap[raw]]));
      if |d.round.deal| == 4 then Evaluated(d) else d
  }

  /** A run of serial lines, read in order. */
  function Lines(b: Board, cardMap: map<string, string>, lines: seq<string>): (e: Board)
    requires CounterKeys <= b.round.counters.Keys
    ensures e.round.counters.Keys == b.round.counters.Keys
    decreases |lines|
  {
    if lines == [] then b
    else Line(Lines(b, cardMap, lines[..|lines| - 1]), cardMap, lines[|lines| - 1])
  }

  /** The road and the log hold one entry per game, and the road's symbols count the
      winner counters. */
  ghost predicate Tallied(b: Board)
    requires CounterKeys <= b.round.counters.Keys
  {
    && |b.road| == b.round.games && |b.log| == b.round.games
    && b.round.counters["PLAYER"] == Count(b.road, "P")
    && b.round.counters["BANKER"] == Count(b.road, "B")
    && b.round.counters["TIE"] == Count(b.road, "T")
  }

  ghost predicate Consistent(b: Board) {
    Coherent(b.round) && Tallied(b)
  }

  lemma StartIsConsistent()
    ensures Consistent(Start)
  {
    FreshIsCoherent();
  }

  /** Evaluating a full deal closes the round, appends the winner's symbol to the road and
      one summary to the log, and keeps the board consistent. */
  lemma EvaluatedRecords(b: Board)
    requires |b.round.deal| == 4 && CounterKeys <= b.round.counters.Keys
    requires Decided(b.round.counters) == b.round.games && Tallied(b)
    ensures var e := Evaluated(b); var o := Evaluate(b.round.deal);
      && Consistent(e) && e.round.gameOver && e.round.games == b.round.games + 1
      && e.round.deal == b.round.deal
      && e.road == b.road + [Short(o.winner)]
      && e.log == b.log + [Summary(b.round.games, b.round.deal[..2], b.round.deal[2..4], o)]
      && e.round.counters[Name(o.winner)] == b.round.counters[Name(o.winner)] + 1
  {
    hide Summary, Evaluate, Total, RankOf, ParseInt;
    var r := b.round;
    var o := Evaluate(r.deal);
    SettleCloses(r);
    TallyBumps(r.counters, o, "PLAYER");
    TallyBumps(r.counters, o, "BANKER");
    TallyBumps(r.counters, o, "TIE");
    CountSnoc(b.road, Short(o.winner), "P");
    CountSnoc(b.road, Short(o.winner), "B");
    CountSnoc(b.road, Short(o.winner), "T");
  }

  lemma ResetKeepsConsistent(b: Board)
    requires Consistent(b)
    ensures Consistent(Reset(b)) && Reset(b).road == b.road && Reset(b).log == b.log
  {
    ClearOpens(b.round);
  }

  lemma ManualKeepsConsistent(b: Board, winner: string)
    requires Consistent(b)
    ensures Consistent(Manual(b, winner))
  {
    if !b.round.gameOver {
      EvaluatedRecords(b.(round := Place(b.round, ManualHand(winner))));
    }
  }

  lemma LineKeepsConsistent(b: Board, cardMap: map<string, string>, line: string)
    requires Consistent(b)
    ensures Consistent(Line(b, cardMap, line))
  {
    var raw := Strip(line);
    if Accepts(b.round, cardMap, raw) {
      AcceptGrowsDeal(b.round, cardMap, raw);
      var d := b.(round := b.round.(deal := b.round.deal + [cardMap[raw]]));
      if |d.round.deal| == 4 {
        EvaluatedRecords(d);
      }
    }
  }

  /** The suits of the placeholder hands, in deal order. */
  const Suits: seq<string> := ["hearts", "clubs", "diamonds", "spades"]

  /** The winner each manual key asks for. */
  function Requested(winner: string): Winner {
    if winner == "PLAYER" then Player else if winner == "BANKER" then Banker else Tie
  }

  /** The placeholder hands win as asked: 8 against 3 with a Player pair and a natural,
      3 against 6 with a Banker pair and a super six, and four 4s for a tie with both
      pairs and a natural. */
  lemma ManualHandOutcomes()
    ensures Evaluate(ManualHand("PLAYER")) == Outcome(Player, 8, 3, true, false, true, false)
    ensures Evaluate(ManualHand("BANKER")) == Outcome(Banker, 3, 6, false, true, false, true)
    ensures Evaluate(ManualHand("TIE")) == Outcome(Tie, 8, 8, true, true, true, false)
  {
    PlayerHand();
    BankerHand();
    TieHand();
  }

  lemma PlayerHand()
    ensures Evaluate(ManualHand("PLAYER")) == Judge(8, 3, true, false)
  {
    hide Evaluate, Total, RankOf, ParseInt;
    var d := [DigitChar(9), DigitChar(9), DigitChar(2), DigitChar(1)];
    assert d == "9921";
    EvaluateDigits(ManualHand("PLAYER"), Suits, [9, 9, 2, 1]);
  }

  lemma BankerHand()
    ensures Evaluate(ManualHand("BANKER")) == Judge(3, 6, false, true)
  {
    hide Evaluate, Total, RankOf, ParseInt;
    var d := [DigitChar(2), DigitChar(1), DigitChar(8), DigitChar(8)];
    assert d == "2188";
    EvaluateDigits(ManualHand("BANKER"), Suits, [2, 1, 8, 8]);
  }

  lemma TieHand()
    ensures Evaluate(ManualHand("TIE")) == Judge(8, 8, true, true)
  {
    hide Evaluate, Total, RankOf, ParseInt;
    assert DigitChar(4) == '4';
    EvaluateDigits(ManualHand("TIE"), Suits, [4, 4, 4, 4]);
  }
  /** On an open round a manual key records the winner it names (any other request records
      a tie) and closes the round; on a closed round it does nothing. */
  lemma ManualRecordsRequest(b: Board, winner: string)
    requires Consistent(b)
    ensures b.round.gameOver ==> Manual(b, winner) == b
    ensures !b.round.gameOver ==>
      && Manual(b, winner).road == b.road + [Short(Requested(winner))]
      && Manual(b, winner).round.gameOver
      && Manual(b, winner).round.games == b.round.games + 1
  {
    if !b.round.gameOver {
      var p := b.(round := Place(b.round, ManualHand(winner)));
      EvaluatedRecords(p);
      ManualHandOutcomes();
      assert ManualHand(winner) == ManualHand(if winner in {"PLAYER", "BANKER"} then winner else "TIE");
    }
  }


  /** From a cleared table, known codes deal their cards in order; the fourth one has the
      round evaluated, adding its winner to the road. */
  lemma {:induction false} LinesDealInOrder(b: Board, cardMap: map<string, string>, lines: seq<string>)
    requires Consistent(b) && b.round.deal == [] && |lines| <= 4
    requires forall i :: 0 <= i < |lines| ==> Strip(lines[i]) != "" && Strip(lines[i]) in cardMap
    ensures var e := Lines(b, cardMap, lines);
      && Consistent(e) && e.round.deal == CardsOf(cardMap, lines)
      && (|lines| < 4 ==> e.road == b.road && !e.round.gameOver)
      && (|lines| == 4 ==> e.round.gameOver && e.round.games == b.round.games + 1
                           && e.road == b.road + [Short(Evaluate(e.round.deal).winner)])
  {
    hide Summary, Evaluate, Strip, Evaluated;
    if lines != [] {
      var init := lines[..|lines| - 1];
      var last := lines[|lines| - 1];
      LinesDealInOrder(b, cardMap, init);
      var m := Lines(b, cardMap, init);
      var raw := Strip(last);
      assert Lines(b, cardMap, lines) == Line(m, cardMap, last);
      assert raw != "" && raw in cardMap && Accepts(m.round, cardMap, raw);
      var d := m.(round := m.round.(deal := m.round.deal + [cardMap[raw]]));
      assert CardsOf(cardMap, lines) == CardsOf(cardMap, init) + [cardMap[raw]];
      hide Lines;
      if |lines| == 4 {
        EvaluatedRecords(d);
      } else {
        AcceptGrowsDeal(m.round, cardMap, raw);
      }
    }
  }

  /** Once a round is over, serial lines change nothing until the table is reset. */
  lemma {:induction false} ClosedRoundIgnoresLines(b: Board, cardMap: map<string, string>, lines: seq<string>)
    requires Consistent(b) && b.round.gameOver
    ensures Lines(b, cardMap, lines) == b
  {
    if lines != [] {
      ClosedRoundIgnoresLines(b, cardMap, lines[..|lines| - 1]);
    }
  }

  /** The globals of mb.py as one object. */
  class Game {
    var deal: seq<string>
    var player: seq<string>
    var banker: seq<string>
    var gameOver: bool
    var counters: map<string, int>
    var gameCounter: nat
    var road: seq<string>
    var log: seq<string>
    const cardMap: map<string, string>

    ghost function State(): Board
      reads this
    {
      Board(Round(deal, player, banker, gameOver, counters, gameCounter), road, log)
    }

    ghost predicate Valid()
      reads this
    {
      CounterKeys <= counters.Keys
    }

    constructor (cardMap: map<string, string>)
      ensures State() == Start && this.cardMap == cardMap
      ensures Valid()
    {
      deal, player, banker := [], [], [];
      gameOver := false;
      counters := ZeroCounters;
      gameCounter := 0;
      road, log := [], [];
      this.cardMap := cardMap;
    }

    /** `evaluate_round`. */
    method EvaluateRound()
      requires Valid()
      modifies this
      ensures Valid() && State() == Evaluated(old(State()))
    {
      hide Evaluate, Tally, Summary, Total, RankOf, ParseInt, IsNatural;
      if |deal| < 4 {
        return;
      }
      player := deal[..2];
      banker := deal[2..4];
      var o := Evaluate(deal);
      counters := Tally(counters, o);
      road := road + [Short(o.winner)];
      log := log + [Summary(gameCounter, player, banker, o)];
      gameOver := true;
      gameCounter := gameCounter + 1;
    }

    /** `reset_board`. */
    method ResetBoard()
      requires Valid()
      modifies this
      ensures Valid() && State() == Reset(old(State()))
    {
      deal, player, banker := [], [], [];
      gameOver := false;
    }

    /** `manual_result`. */
    method ManualResult(winner: string)
      requires Valid()
      modifies this
      ensures Valid() && State() == Manual(old(State()), winner)
    {
      hide Evaluated;
      if gameOver {
        return;
      }
      deal := ManualHand(winner);
      gameOver := false;
      EvaluateRound();
    }

    /** One pass of `serial_reader` that has read `line`. */
    method ReadLine(line: string)
      requires Valid()
      modifies this
      ensures Valid() && State() == Line(old(State()), cardMap, line)
    {
      hide Evaluated;
      var raw := Strip(line);
      if raw == "" {
        return;
      }
      if raw in cardMap && !gameOver {
        deal := deal + [cardMap[raw]];
        if |deal| == 4 {
          EvaluateRound();
        }
      }
    }
  }
}

=== FILE: mbmain.dfy ===
/**
  mbmain.py: the same two-card Baccarat board as mb.py, but each result goes onto a
  bead plate instead of a cockroach road and a text log. `append_bead` already saves the
  symbol to the compact history file and `evaluate_round` saves it once more, so the
  file holds every result twice. Its manual Player key deals a hand that Banker wins;
  that hand is modelled as written next to the corrected one the board uses.
*/
module MbMain {
  import opened Text
  import opened Cards
  import opened Scoring
  import opened Rounds
  import opened Beads

  /** The globals of mbmain.py: the round, the beads in the order they were placed, and
      the lines of the compact history file. */
  datatype Board = Board(round: Round, beads: seq<string>, file: seq<string>)

  const Start: Board := Board(Fresh, [], [])

  /** The history file's lines for a run of results: each symbol twice in a row. */
  function Doubled(s: seq<string>): (r: seq<string>)
    ensures |r| == 2 * |s|
  {
    if s == [] then [] else Doubled(s[..|s| - 1]) + [s[|s| - 1], s[|s| - 1]]
  }

  /** Line `2i` and line `2i+1` of the file both hold result `i`. */
  lemma {:induction false} DoubledPairs(s: seq<string>, i: nat)
    requires i < |s|
    ensures Doubled(s)[2 * i] == s[i] && Doubled(s)[2 * i + 1] == s[i]
  {
    if i < |s| - 1 {
      DoubledPairs(s[..|s| - 1], i);
    }
  }

  /** `evaluate_round`: nothing happens before four cards are in; otherwise the first four
      are settled, the winner's symbol placed on the plate and saved twice. */
  function Evaluated(b: Board): (e: Board)
    requires CounterKeys <= b.round.counters.Keys
    ensures e.round.counters.Keys == b.round.counters.Keys
    ensures |b.round.deal| < 4 ==> e == b
  {
    if |b.round.deal| < 4 then b
    else
      var s := Short(Evaluate(b.round.deal).winner);
      Board(Settle(b.round), b.beads + [s], b.file + [s, s])
  }

  /** `reset_board`. */
  function Reset(b: Board): Board {
    b.(round := Clear(b.round))
  }

  /** The placeholder deals of `manual_result` as mbmain.py writes them. */
  function WrittenManualHand(winner: string): (hand: seq<string>)
    ensures |hand| == 4
  {
    if winner == "PLAYER" then ["hearts_9", "clubs_1", "diamonds_2", "spades_1"]
    else if winner == "BANKER" then ["hearts_1", "clubs_1", "diamonds_8", "spades_8"]
    else ["hearts_4", "clubs_4", "diamonds_4", "spades_4"]
  }

  /** The placeholder deals with the Player hand corrected to two nines, the hand mb.py
      uses for the same key. */
  function ManualHand(winner: string): (hand: seq<string>)
    ensures |hand| == 4
    ensures winner != "PLAYER" ==> hand == WrittenManualHand(winner)
  {
    if winner == "PLAYER" then ["hearts_9", "clubs_9", "diamonds_2", "spades_1"]
    else WrittenManualHand(winner)
  }

  /** `manual_result` as written. */
  function WrittenManual(b: Board, winner: string): (e: Board)
    requires CounterKeys <= b.round.counters.Keys
    ensures e.round.counters.Keys == b.round.counters.Keys
  {
    if b.round.gameOver then b else Evaluated(b.(round := Place(b.round, WrittenManualHand(winner))))
  }

  /** `manual_result` with the corrected Player hand. */
  function Manual(b: Board, winner: string): (e: Board)
    requires CounterKeys <= b.round.counters.Keys
    ensures e.round.counters.Keys == b.round.counters.Keys
  {
    if b.round.gameOver then b else Evaluated(b.(round := Place(b.round, ManualHand(winner))))
  }

  /** One line of `serial_reader`: an accepted code deals its card, and the fourth card
      has the round evaluated. */
  function Line(b: Board, cardMap: map<string, string>, line: string): (e: Board)
    requires CounterKeys <= b.round.counters.Keys
    ensures e.round.counters.Keys == b.round.counters.Keys
  {
    var raw := Strip(line);
    if !Accepts(b.round, cardMap, raw) then b
    else
      var d := b.(round := b.round.(deal := b.round.deal + [cardMap[raw]]));
      if |d.round.deal| == 4 then Evaluated(d) else d
  }

  /** The plate holds one bead per game, its symbols count the winner counters, and the
      file holds each bead twice. */
  ghost predicate Tallied(b: Board)
    requires CounterKeys <= b.round.counters.Keys
  {
    && |b.beads| == b.round.games && b.file == Doubled(b.beads)
    && b.round.counters["PLAYER"] == Count(b.beads, "P")
    && b.round.counters["BANKER"] == Count(b.beads, "B")
    && b.round.counters["TIE"] == Count(b.beads, "T")
  }

  ghost predicate Consistent(b: Board) {
    Coherent(b.round) && Tallied(b)
  }

  lemma StartIsConsistent()
    ensures Consistent(Start)
  {
    FreshIsCoherent();
  }

  /** Evaluating a full deal closes the round, places the winner's bead, saves it twice and
      keeps the board consistent. */
  lemma EvaluatedRecords(b: Board)
    requires |b.round.deal| == 4 && CounterKeys <= b.round.counters.Keys
    requires Decided(b.round.counters) == b.round.games && Tallied(b)
    ensures var e := Evaluated(b); var o := Evaluate(b.round.deal);
      && Consistent(e) && e.round.gameOver && e.round.games == b.round.games + 1
      && e.round.deal == b.round.deal && e.beads == b.beads + [Short(o.winner)]
      && e.round.counters[Name(o.winner)] == b.round.counters[Name(o.winner)] + 1
  {
    hide Evaluate, Total, RankOf, ParseInt;
    var r := b.round;
    var o := Evaluate(r.deal);
    var s := Short(o.winner);
    SettleCloses(r);
    TallyBumps(r.counters, o, "PLAYER");
    TallyBumps(r.counters, o, "BANKER");
    TallyBumps(r.counters, o, "TIE");
    CountSnoc(b.beads, s, "P");
    CountSnoc(b.beads, s, "B");
    CountSnoc(b.beads, s, "T");
    assert (b.beads + [s])[..|b.beads|] == b.beads;
  }

  lemma ResetKeepsConsistent(b: Board)
    requires Consistent(b)
    ensures Consistent(Reset(b)) && Reset(b).beads == b.beads && Reset(b).file == b.file
  {
    ClearOpens(b.round);
  }

  lemma ManualKeepsConsistent(b: Board, winner: string)
    requires Consistent(b)
    ensures Consistent(Manual(b, winner))
  {
    if !b.round.gameOver {
      EvaluatedRecords(b.(round := Place(b.round, ManualHand(winner))));
    }
  }

  lemma LineKeepsConsistent(b: Board, cardMap: map<string, string>, line: string)
    requires Consistent(b)
    ensures Consistent(Line(b, cardMap, line))
  {
    var raw := Strip(line);
    if Accepts(b.round, cardMap, raw) {
      AcceptGrowsDeal(b.round, cardMap, raw);
      var d := b.(round := b.round.(deal := b.round.deal + [cardMap[raw]]));
      if |d.round.deal| == 4 {
        EvaluatedRecords(d);
      }
    }
  }

  /** A run of serial lines, read in order. */
  function Lines(b: Board, cardMap: map<string, string>, lines: seq<string>): (e: Board)
    requires CounterKeys <= b.round.counters.Keys
    ensures e.round.counters.Keys == b.round.counters.Keys
    decreases |lines|
  {
    if lines == [] then b
    else Line(Lines(b, cardMap, lines[..|lines| - 1]), cardMap, lines[|lines| - 1])
  }

  /** One serial line: a blank line, an unknown code or a closed round changes nothing; an
      accepted code is dealt as the next card of a round that holds fewer than four, and
      the fourth has the round evaluated. */
  lemma LineDeals(b: Board, cardMap: map<string, string>, line: string)
    requires Consistent(b)
    ensures b.round.gameOver || Strip(line) == "" || Strip(line) !in cardMap ==> Line(b, cardMap, line) == b
    ensures !b.round.gameOver && Strip(line) != "" && Strip(line) in cardMap ==>
      var d := b.(round := b.round.(deal := b.round.deal + [cardMap[Strip(line)]]));
      && |b.round.deal| < 4
      && (|b.round.deal| < 3 ==> Line(b, cardMap, line) == d)
      && (|b.round.deal| == 3 ==> Line(b, cardMap, line) == Evaluated(d))
  {
    var raw := Strip(line);
    if Accepts(b.round, cardMap, raw) {
      AcceptGrowsDeal(b.round, cardMap, raw);
    }
  }

  /** From a cleared table, known codes deal their cards in order; the fourth one has the
      round evaluated, placing its winner's bead. */
  lemma {:induction false} LinesDealInOrder(b: Board, cardMap: map<string, string>, lines: seq<string>)
    requires Consistent(b) && b.round.deal == [] && |lines| <= 4
    requires forall i :: 0 <= i < |lines| ==> Strip(lines[i]) != "" && Strip(lines[i]) in cardMap
    ensures var e := Lines(b, cardMap, lines);
      && Consistent(e) && e.round.deal == CardsOf(cardMap, lines)
      && (|lines| < 4 ==> e.beads == b.beads && !e.round.gameOver)
      && (|lines| == 4 ==> e.round.gameOver && e.round.games == b.round.games + 1
                           && e.beads == b.beads + [Short(Evaluate(e.round.deal).winner)])
  {
    hide Evaluate, Strip, Evaluated, Total, RankOf, ParseInt;
    if lines != [] {
      var init := lines[..|lines| - 1];
      var last := lines[|lines| - 1];
      LinesDealInOrder(b, cardMap, init);
      var m := Lines(b, cardMap, init);
      var raw := Strip(last);
      assert Lines(b, cardMap, lines) == Line(m, cardMap, last);
      assert CardsOf(cardMap, lines) == CardsOf(cardMap, init) + [cardMap[raw]];
      hide Lines;
      LineDeals(m, cardMap, last);
      var d := m.(round := m.round.(deal := m.round.deal + [cardMap[raw]]));
      hide Line;
      if |lines| == 4 {
        EvaluatedRecords(d);
      } else {
        AcceptGrowsDeal(m.round, cardMap, raw);
      }
    }
  }

  /** Once a round is over, serial lines change nothing until the table is reset. */
  lemma {:induction false} ClosedRoundIgnoresLines(b: Board, cardMap: map<string, string>, lines: seq<string>)
    requires Consistent(b) && b.round.gameOver
    ensures Lines(b, cardMap, lines) == b
  {
    if lines != [] {
      ClosedRoundIgnoresLines(b, cardMap, lines[..|lines| - 1]);
    }
  }

  /** The suits of the placeholder hands, in deal order. */
  const Suits: seq<string> := ["hearts", "clubs", "diamonds", "spades"]

  /** The Player hand as written totals 9 + 1 = 10, that is 0, against Banker's 2 + 1 = 3:
      the key that should record a Player win records a Banker win. */
  lemma WrittenPlayerHandLoses()
    ensures Evaluate(WrittenManualHand("PLAYER")) == Outcome(Banker, 0, 3, false, false, false, false)
  {
    hide Evaluate, Total, RankOf, ParseInt;
    var d := [DigitChar(9), DigitChar(1), DigitChar(2), DigitChar(1)];
    assert d == "9121";
    EvaluateDigits(WrittenManualHand("PLAYER"), Suits, [9, 1, 2, 1]);
  }

  /** So on an open round the Player key as written places a Banker bead. */
  lemma WrittenPlayerKeyPlacesBanker(b: Board)
    requires Consistent(b) && !b.round.gameOver
    ensures WrittenManual(b, "PLAYER").beads == b.beads + ["B"]
  {
    hide Evaluate, Total, RankOf, ParseInt;
    WrittenPlayerHandLoses();
    EvaluatedRecords(b.(round := Place(b.round, WrittenManualHand("PLAYER"))));
  }

  lemma PlayerHand()
    ensures Evaluate(ManualHand("PLAYER")) == Judge(8, 3, true, false)
  {
    hide Evaluate, Total, RankOf, ParseInt;
    var d := [DigitChar(9), DigitChar(9), DigitChar(2), DigitChar(1)];
    assert d == "9921";
    EvaluateDigits(ManualHand("PLAYER"), Suits, [9, 9, 2, 1]);
  }

  lemma BankerHand()
    ensures Evaluate(ManualHand("BANKER")) == Judge(2, 6, true, true)
  {
    hide Evaluate, Total, RankOf, ParseInt;
    var d := [DigitChar(1), DigitChar(1), DigitChar(8), DigitChar(8)];
    assert d == "1188";
    EvaluateDigits(ManualHand("BANKER"), Suits, [1, 1, 8, 8]);
  }

  lemma TieHand()
    ensures Evaluate(ManualHand("TIE")) == Judge(8, 8, true, true)
  {
    hide Evaluate, Total, RankOf, ParseInt;
    assert DigitChar(4) == '4';
    EvaluateDigits(ManualHand("TIE"), Suits, [4, 4, 4, 4]);
  }

  /** With the corrected Player hand every placeholder deal wins as asked: 8 against 3 with
      a Player pair and a natural, 2 against 6 with both pairs and a super six, and four 4s
      for a tie with both pairs and a natural. */
  lemma ManualHandOutcomes()
    ensures Evaluate(ManualHand("PLAYER")) == Outcome(Player, 8, 3, true, false, true, false)
    ensures Evaluate(ManualHand("BANKER")) == Outcome(Banker, 2, 6, true, true, false, true)
    ensures Evaluate(ManualHand("TIE")) == Outcome(Tie, 8, 8, true, true, true, false)
  {
    PlayerHand();
    BankerHand();
    TieHand();
  }

  /** The winner each manual key asks for. */
  function Requested(winner: string): Winner {
    if winner == "PLAYER" then Player else if winner == "BANKER" then Banker else Tie
  }

  /** On an open round a manual key places the bead of the winner it names (any other
      request places a tie) and closes the round; on a closed round it does nothing. */
  lemma ManualRecordsRequest(b: Board, winner: string)
    requires Consistent(b)
    ensures b.round.gameOver ==> Manual(b, winner) == b
    ensures !b.round.gameOver ==>
      && Manual(b, winner).beads == b.beads + [Short(Requested(winner))]
      && Manual(b, winner).round.gameOver
      && Manual(b, winner).round.games == b.round.games + 1
  {
    if !b.round.gameOver {
      hide Evaluate, Total, RankOf, ParseInt;
      EvaluatedRecords(b.(round := Place(b.round, ManualHand(winner))));
      ManualHandOutcomes();
      assert ManualHand(winner) == ManualHand(if winner in {"PLAYER", "BANKER"} then winner else "TIE");
    }
  }

  /** The globals of mbmain.py as one object; the bead plate is `bead_columns` with the
      history file it saves to. */
  class Game {
    var deal: seq<string>
    var player: seq<string>
    var banker: seq<string>
    var gameOver: bool
    var counters: map<string, int>
    var gameCounter: nat
    const plate: BeadPlate
    const cardMap: map<string, string>

    ghost function State(): Board
      reads this, plate
    {
      Board(Round(deal, player, banker, gameOver, counters, gameCounter), Flatten(plate.columns), plate.file)
    }

    ghost predicate Valid()
      reads this, plate
    {
      CounterKeys <= counters.Keys && plate.Valid()
    }

    constructor (cardMap: map<string, string>)
      ensures State() == Start && this.cardMap == cardMap
      ensures Valid()
    {
      deal, player, banker := [], [], [];
      gameOver := false;
      counters := ZeroCounters;
      gameCounter := 0;
      var p := new BeadPlate();
      assert Flatten(p.columns) == [];
      plate := p;
      this.cardMap := cardMap;
    }

    /** `evaluate_round`. */
    method EvaluateRound()
      requires Valid()
      modifies this, plate
      ensures Valid() && State() == Evaluated(old(State()))
    {
      hide Evaluate, Tally, Layout, Total, RankOf, ParseInt;
      if |deal| < 4 {
        return;
      }
      player := deal[..2];
      banker := deal[2..4];
      var o := Evaluate(deal);
      counters := Tally(counters, o);
      var short := Short(o.winner);
      plate.AppendBead(short);
      plate.SaveHistoryCompact(short);
      gameOver := true;
      gameCounter := gameCounter + 1;
    }

    /** `reset_board`. */
    method ResetBoard()
      requires Valid()
      modifies this
      ensures Valid() && State() == Reset(old(State()))
    {
      deal, player, banker := [], [], [];
      gameOver := false;
    }

    /** `manual_result`, dealing the corrected placeholder hands. */
    method ManualResult(winner: string)
      requires Valid()
      modifies this, plate
      ensures Valid() && State() == Manual(old(State()), winner)
    {
      hide Evaluated;
      if gameOver {
        return;
      }
      deal := ManualHand(winner);
      gameOver := false;
      EvaluateRound();
    }

    /** One pass of `serial_reader` that has read `line`. */
    method ReadLine(line: string)
      requires Valid()
      modifies this, plate
      ensures Valid() && State() == Line(old(State()), cardMap, line)
    {
      hide Evaluated;
      var raw := Strip(line);
      if raw == "" {
        return;
      }
      if raw in cardMap && !gameOver {
        deal := deal + [cardMap[raw]];
        if |deal| == 4 {
          EvaluateRound();
        }
      }
    }
  }
}

=== FILE: rounds.dfy ===
/**
  The round state that mb.py and mbmain.py keep in the same globals (`deal_cards`,
  `player_cards`, `banker_cards`, `game_over`, `counters`, `game_counter`) and the steps
  of `evaluate_round`, `reset_board`, `manual_result` and the serial reader that act on
  it the same way in both files. What each file records besides (mb.py's cockroach road
  and text log, mbmain.py's bead plate) is in its own module.
*/
module Rounds {
  import opened Text
  import opened Cards
  import opened Scoring
  import CardFacts
  import TotalFacts

  datatype Round = Round(
    deal: seq<string>, player: seq<string>, banker: seq<string>,
    gameOver: bool, counters: map<string, int>, games: nat)

  /** The globals as both files initialise them. */
  const Fresh: Round := Round([], [], [], false, ZeroCounters, 0)

  /** The state changes of `evaluate_round` once four cards are in: the hands are copied
      out of the deal, the counters tallied, the round closed and the game counted. */
  function Settle(r: Round): (s: Round)
    requires |r.deal| >= 4 && CounterKeys <= r.counters.Keys
    ensures s.counters.Keys == r.counters.Keys
  {
    r.(player := r.deal[..2], banker := r.deal[2..4],
       counters := Tally(r.counters, Evaluate(r.deal)),
       gameOver := true, games := r.games + 1)
  }

  /** `reset_board`: the three card lists are emptied and a new round opens; the counters
      and the game number carry over. */
  function Clear(r: Round): (c: Round)
    ensures c.counters == r.counters && c.games == r.games
    ensures !c.gameOver && c.deal == [] && c.player == [] && c.banker == []
  {
    r.(deal := [], player := [], banker := [], gameOver := false)
  }

  /** The first step of `manual_result` when the round is open: the placeholder hand
      replaces whatever was dealt and the round is marked open before evaluation. */
  function Place(r: Round, hand: seq<string>): Round {
    r.(deal := hand, gameOver := false)
  }

  /** The serial reader's test on a stripped line: it must be non-empty, a known card
      code, and arrive while the round is open. */
  predicate Accepts(r: Round, cardMap: map<string, string>, raw: string)
    ensures Accepts(r, cardMap, raw) ==> !r.gameOver && raw in cardMap
    ensures r.gameOver || raw !in cardMap ==> !Accepts(r, cardMap, raw)
  {
    raw != "" && raw in cardMap && !r.gameOver
  }

  /** The round invariant: the counters are all there and their winner counts add up to the
      number of games; at most four cards are dealt and the round is over exactly when
      four are; the hands show the deal once it is over and nothing while it is open. */
  predicate Coherent(r: Round) {
    && CounterKeys <= r.counters.Keys
    && Decided(r.counters) == r.games
    && |r.deal| <= 4
    && (r.gameOver <==> |r.deal| == 4)
    && (if r.gameOver then r.player == r.deal[..2] && r.banker == r.deal[2..4]
        else r.player == [] && r.banker == [])
  }

  lemma FreshIsCoherent()
    ensures Coherent(Fresh)
  {
    assert Decided(ZeroCounters) == 0;
  }

  /** Settling a full deal closes the round coherently and adds the game to exactly one
      winner counter, the one of the evaluated outcome. */
  lemma SettleCloses(r: Round)
    requires |r.deal| == 4 && CounterKeys <= r.counters.Keys && Decided(r.counters) == r.games
    ensures Coherent(Settle(r))
    ensures var w := Name(Evaluate(r.deal).winner);
      Settle(r).counters[w] == r.counters[w] + 1
  {
    TallyBumpsOneWinner(r.counters, Evaluate(r.deal));
  }

  /** Clearing keeps the counters and the game number and opens a coherent round. */
  lemma ClearOpens(r: Round)
    requires CounterKeys <= r.counters.Keys && Decided(r.counters) == r.games
    ensures Coherent(Clear(r)) && !Clear(r).gameOver && Clear(r).deal == []
    ensures Clear(r).counters == r.counters && Clear(r).games == r.games
  {
  }

  /** An accepted card joins a coherent open round: the deal grows by that card and
      stays within four cards. */
  lemma AcceptGrowsDeal(r: Round, cardMap: map<string, string>, raw: string)
    requires Coherent(r) && Accepts(r, cardMap, raw)
    ensures |r.deal| < 4
    ensures var d := r.(deal := r.deal + [cardMap[raw]]);
      |d.deal| == |r.deal| + 1 && (|d.deal| < 4 ==> Coherent(d))
  {
  }

  /** The placeholder hands of `manual_result` are `suit_d` names with digit ranks. Such a
      deal evaluates on the digits alone: the totals are the digit sums mod 10 and a hand
      is a pair exactly when its two digits agree. */
  lemma EvaluateDigits(deal: seq<string>, suits: seq<string>, ds: seq<nat>)
    requires |deal| == 4 && |suits| == 4 && |ds| == 4
    requires forall i :: 0 <= i < 4 ==> 1 <= ds[i] <= 9 && '/' !in suits[i] && '.' !in suits[i]
    requires forall i :: 0 <= i < 4 ==> deal[i] == suits[i] + "_" + [DigitChar(ds[i])]
    ensures Evaluate(deal) == Judge((ds[0] + ds[1]) % 10, (ds[2] + ds[3]) % 10,
                                    ds[0] == ds[1], ds[2] == ds[3])
  {
    hide RankOf, CardPoint, ParseInt;
    forall i | 0 <= i < 4
      ensures RankOf(deal[i]) == [DigitChar(ds[i])] && CardPoint(deal[i]) == ds[i]
    {
      CardFacts.DigitCard(suits[i], ds[i]);
    }
    assert deal[..2] == [deal[0], deal[1]] && deal[2..4] == [deal[2], deal[3]];
    TotalFacts.TotalOfPair(ByRank, deal[0], deal[1]);
    TotalFacts.TotalOfPair(ByRank, deal[2], deal[3]);
    assert ds[0] == ds[1] <==> [DigitChar(ds[0])] == [DigitChar(ds[1])];
    assert ds[2] == ds[3] <==> [DigitChar(ds[2])] == [DigitChar(ds[3])];
  }
}

=== FILE: scoring.dfy ===
/**
  The Baccarat round evaluator shared by mb.py, mbmain.py, bacarat.py and
  custommb.py: the first two dealt cards are the Player hand and the next two the
  Banker hand, the higher total wins and equal totals tie, and mb.py and mbmain.py
  also derive pair, natural and super-six flags and keep outcome counters.
*/
module Scoring {
  import opened Text
  import opened Cards
  import CardFacts

  datatype Winner = Player | Banker | Tie

  /** The winner as the front-ends print it and key their counters by. */
  function Name(w: Winner): string {
    match w
    case Player => "PLAYER"
    case Banker => "BANKER"
    case Tie => "TIE"
  }

  /** The one-letter symbol of the cockroach road and the bead plate. */
  function Short(w: Winner): string {
    match w
    case Player => "P"
    case Banker => "B"
    case Tie => "T"
  }

  /** The winner rule of mb.py and mbmain.py: equal totals tie, otherwise the higher total
      wins. */
  function Decide(p: int, b: int): (w: Winner)
    ensures w == Tie <==> p == b
    ensures w == Player <==> p > b
    ensures w == Banker <==> p < b
  {
    if p == b then Tie else if p > b then Player else Banker
  }

  predicate IsNatural(total: int) {
    total == 8 || total == 9
  }

  /** bacarat.py's winner rule as written: a branch for naturals and a branch for the
      rest, each comparing the totals. */
  function DecideNaturalsFirst(p: int, b: int): Winner {
    if IsNatural(p) || IsNatural(b) then
      if p > b then Player else if b > p then Banker else Tie
    else
      if p > b then Player else if b > p then Banker else Tie
  }

  /** custommb.py's winner rule as written: TIE unless the totals differ. */
  function DecideTieUnlessDifferent(p: int, b: int): Winner {
    if p != b then (if p > b then Player else Banker) else Tie
  }

  /** The three front-ends pick the same winner: the natural test of bacarat.py decides
      nothing, and custommb.py's order of tests changes nothing. */
  lemma WinnerRulesAgree(p: int, b: int)
    ensures DecideNaturalsFirst(p, b) == Decide(p, b)
    ensures DecideTieUnlessDifferent(p, b) == Decide(p, b)
  {
  }

  /** What one evaluation of mb.py or mbmain.py derives from a round. */
  datatype Outcome = Outcome(
    winner: Winner, pTotal: int, bTotal: int,
    pPair: bool, bPair: bool, natural: bool, superSix: bool)

  /** The derived checks of mb.py and mbmain.py, given the two totals and whether each hand
      is a pair. */
  function Judge(p: int, b: int, pPair: bool, bPair: bool): (o: Outcome)
    ensures o.pTotal == p && o.bTotal == b && o.pPair == pPair && o.bPair == bPair
    ensures o.winner == Tie <==> p == b
    ensures o.winner == Player <==> p > b
    ensures o.natural <==> IsNatural(p) || IsNatural(b)
    ensures o.superSix ==> o.winner == Banker && b == 6
    ensures o.superSix <==> p < 6 && b == 6
  {
    var w := Decide(p, b);
    Outcome(w, p, b, pPair, bPair, IsNatural(p) || IsNatural(b), w == Banker && b == 6)
  }

  /** `evaluate_round` of mb.py and mbmain.py once four cards are in: Player holds cards
      0 and 1, Banker cards 2 and 3; a hand is a pair when its two `card_rank`s agree. */
  function Evaluate(deal: seq<string>): (o: Outcome)
    requires |deal| >= 4
    ensures 0 <= o.pTotal <= 9 && 0 <= o.bTotal <= 9
    ensures o.pTotal == Total(ByRank, deal[..2]) && o.bTotal == Total(ByRank, deal[2..4])
    ensures o.pPair <==> RankOf(deal[0]) == RankOf(deal[1])
    ensures o.bPair <==> RankOf(deal[2]) == RankOf(deal[3])
    ensures o.winner == Tie <==> o.pTotal == o.bTotal
    ensures o.winner == Player <==> o.pTotal > o.bTotal
    ensures o.natural <==> IsNatural(o.pTotal) || IsNatural(o.bTotal)
    ensures o.superSix <==> o.pTotal < 6 && o.bTotal == 6
  {
    Judge(Total(ByRank, deal[..2]), Total(ByRank, deal[2..4]),
          RankOf(deal[0]) == RankOf(deal[1]), RankOf(deal[2]) == RankOf(deal[3]))
  }

  /** The counter keys mb.py and mbmain.py start with, each at 0. */
  const CounterKeys: set<string> :=
    {"PLAYER", "BANKER", "TIE", "PLAYER_PAIR", "BANKER_PAIR", "NATURAL", "SUPER_SIX"}

  const ZeroCounters: map<string, int> := map k | k in CounterKeys :: 0

  /** The counters one outcome bumps: its winner and each derived flag that holds. */
  function Bumped(o: Outcome): (keys: set<string>)
    ensures keys <= CounterKeys
    ensures Name(o.winner) in keys
  {
    {Name(o.winner)}
      + (if o.pPair then {"PLAYER_PAIR"} else {})
      + (if o.bPair then {"BANKER_PAIR"} else {})
      + (if o.natural then {"NATURAL"} else {})
      + (if o.superSix then {"SUPER_SIX"} else {})
  }

  /** The counter updates of `evaluate_round`. The flag counters use `+= 1`, which needs the
      key to be present already, while the winner's uses `get(winner, 0)`. */
  function Tally(counters: map<string, int>, o: Outcome): (r: map<string, int>)
    requires CounterKeys <= counters.Keys
    ensures r.Keys == counters.Keys
  {
    var w := Name(o.winner);
    var c := counters[w := counters[w] + 1];
    var c := if o.pPair then c["PLAYER_PAIR" := c["PLAYER_PAIR"] + 1] else c;
    var c := if o.bPair then c["BANKER_PAIR" := c["BANKER_PAIR"] + 1] else c;
    var c := if o.natural then c["NATURAL" := c["NATURAL"] + 1] else c;
    if o.superSix then c["SUPER_SIX" := c["SUPER_SIX"] + 1] else c
  }

  /** An evaluation adds one to each counter it bumps and leaves every other counter as it
      was. */
  lemma TallyBumps(counters: map<string, int>, o: Outcome, k: string)
    requires CounterKeys <= counters.Keys && k in counters
    ensures Tally(counters, o)[k] == counters[k] + (if k in Bumped(o) then 1 else 0)
  {
  }

  /** The three winner counters added up. */
  function Decided(counters: map<string, int>): int
    requires {"PLAYER", "BANKER", "TIE"} <= counters.Keys
  {
    counters["PLAYER"] + counters["BANKER"] + counters["TIE"]
  }

  /** Each evaluation bumps exactly one of PLAYER, BANKER and TIE, so their sum grows by one. */
  lemma TallyBumpsOneWinner(counters: map<string, int>, o: Outcome)
    requires CounterKeys <= counters.Keys
    ensures Decided(Tally(counters, o)) == Decided(counters) + 1
    ensures Tally(counters, o)[Name(o.winner)] == counters[Name(o.winner)] + 1
  {
    TallyBumps(counters, o, "PLAYER");
    TallyBumps(counters, o, "BANKER");
    TallyBumps(counters, o, "TIE");
    match o.winner
    case Player =>
      assert "BANKER" !in Bumped(o) && "TIE" !in Bumped(o);
    case Banker =>
      assert "PLAYER" !in Bumped(o) && "TIE" !in Bumped(o);
    case Tie =>
      assert "PLAYER" !in Bumped(o) && "BANKER" !in Bumped(o);
  }

  /** The pair flags compare ranks only: for `suit_rank` names a hand is a pair exactly when
      its two rank segments agree up to case, whatever the suits. */
  lemma PairIgnoresSuits(deal: seq<string>, s0: string, r0: string, s1: string, r1: string)
    requires |deal| >= 4 && deal[0] == s0 + "_" + r0 && deal[1] == s1 + "_" + r1
    requires '/' !in s0 && '.' !in s0 && '/' !in s1 && '.' !in s1
    requires '/' !in r0 && '.' !in r0 && '_' !in r0 && '/' !in r1 && '.' !in r1 && '_' !in r1
    ensures Evaluate(deal).pPair <==> Lower(r0) == Lower(r1)
  {
    CardFacts.RankOfSuitName(s0, r0);
    CardFacts.RankOfSuitName(s1, r1);
  }
}

=== FILE: text.dfy ===
/**
  The handful of Python `str` operations the game core leans on: `strip()`,
  `lower()`, `isalnum()`, `rstrip(chars)`, `split(sep)[-1]`, `os.path.basename`,
  `os.path.splitext`, `int()` on text, `str()` of a number and `sep.join(...)`.
  Character classes follow Python where the core can meet them: `IsSpace` is
  Python's whole whitespace set, while case folding and `isalnum` are ASCII only.
*/
module Text {
  import opened Wrappers

  /** Python's `str.isspace()` for one character. */
  predicate IsSpace(c: char) {
    || ('\t' <= c <= '\r')
    || ('\U{1C}' <= c <= ' ')
    || c == '\U{85}' || c == '\U{A0}' || c == '\U{1680}'
    || ('\U{2000}' <= c <= '\U{200A}')
    || c == '\U{2028}' || c == '\U{2029}' || c == '\U{202F}' || c == '\U{205F}' || c == '\U{3000}'
  }

  predicate AllSpace(s: string) {
    forall i :: 0 <= i < |s| ==> IsSpace(s[i])
  }

  /** `s.lstrip()`: drops the leading run of whitespace. */
  function StripLeft(s: string): (r: string)
    ensures |r| <= |s|
  {
    if s != [] && IsSpace(s[0]) then StripLeft(s[1..]) else s
  }

  /** `s.rstrip()`: drops the trailing run of whitespace. */
  function StripRight(s: string): (r: string)
    ensures |r| <= |s|
  {
    if s != [] && IsSpace(s[|s| - 1]) then StripRight(s[..|s| - 1]) else s
  }

  /** `s.strip()`: the text between the leading and the trailing whitespace runs. */
  function Strip(s: string): (r: string)
    ensures |r| <= |s|
  {
    StripRight(StripLeft(s))
  }

  /** `lstrip()` keeps a suffix that starts with non-whitespace, and what it drops is all
      whitespace. */
  lemma {:induction false} StripLeftIsSuffix(s: string)
    ensures StripLeft(s) == s[|s| - |StripLeft(s)|..]
    ensures StripLeft(s) == [] || !IsSpace(StripLeft(s)[0])
    ensures AllSpace(s[..|s| - |StripLeft(s)|])
  {
    if s != [] && IsSpace(s[0]) {
      StripLeftIsSuffix(s[1..]);
      assert s[..|s| - |StripLeft(s)|] == [s[0]] + s[1..][..|s[1..]| - |StripLeft(s[1..])|];
    }
  }

  /** `rstrip()` keeps a prefix that ends with non-whitespace. */
  lemma {:induction false} StripRightIsPrefix(s: string)
    ensures StripRight(s) == s[..|StripRight(s)|]
    ensures StripRight(s) == [] || !IsSpace(StripRight(s)[|StripRight(s)| - 1])
  {
    if s != [] && IsSpace(s[|s| - 1]) {
      StripRightIsPrefix(s[..|s| - 1]);
    }
  }

  /** `rstrip()` never removes a non-whitespace character nor anything before one. */
  lemma {:induction false} StripRightKeeps(s: string, i: nat)
    requires i < |s| && !IsSpace(s[i])
    ensures |StripRight(s)| > i
  {
    if IsSpace(s[|s| - 1]) {
      StripRightKeeps(s[..|s| - 1], i);
    }
  }

  /** What `strip()` keeps is the slice of its input that starts after the leading
      whitespace; it neither starts nor ends with whitespace, and it is empty exactly when
      the input is all whitespace. */
  lemma StripIsSlice(s: string)
    ensures Strip(s) == s[|s| - |StripLeft(s)|..][..|Strip(s)|]
    ensures Strip(s) == [] || (!IsSpace(Strip(s)[0]) && !IsSpace(Strip(s)[|Strip(s)| - 1]))
    ensures Strip(s) == [] <==> AllSpace(s)
  {
    var l := StripLeft(s);
    var r := Strip(s);
    var i := |s| - |l|;
    StripLeftIsSuffix(s);
    StripRightIsPrefix(l);
    if l != [] {
      StripRightKeeps(l, 0);
      assert r[0] == l[0];
    } else {
      assert s == s[..i];
    }
  }

  /** Stripping twice is stripping once, so re-stripping a framed token changes nothing. */
  lemma StripIdempotent(s: string)
    ensures Strip(Strip(s)) == Strip(s)
  {
    var r := Strip(s);
    StripIsSlice(s);
    assert StripLeft(r) == r;
    assert StripRight(r) == r;
  }

  /** `c.lower()` for ASCII. */
  function LowerChar(c: char): char {
    if 'A' <= c <= 'Z' then (c as int + 32) as char else c
  }

  /** `s.lower()` for ASCII. */
  function Lower(s: string): (r: string)
    ensures |r| == |s|
  {
    seq(|s|, i requires 0 <= i < |s| => LowerChar(s[i]))
  }

  lemma LowerAppend(a: string, b: string)
    ensures Lower(a + b) == Lower(a) + Lower(b)
  {
    assert forall i :: 0 <= i < |a + b| ==> Lower(a + b)[i] == (Lower(a) + Lower(b))[i];
  }

  /** `c.isalnum()` for ASCII. */
  predicate IsAlnum(c: char) {
    ('a' <= c <= 'z') || ('A' <= c <= 'Z') || ('0' <= c <= '9')
  }

  /** `''.join(ch for ch in s if ch.isalnum())`. */
  function Alnums(s: string): (r: string)
    ensures |r| <= |s|
  {
    if s == [] then [] else (if IsAlnum(s[0]) then [s[0]] else []) + Alnums(s[1..])
  }

  /** The filter keeps only alphanumerics of the input, and keeps text made of them whole. */
  lemma {:induction false} AlnumsKeeps(s: string)
    ensures forall c :: c in Alnums(s) ==> IsAlnum(c) && c in s
    ensures (forall i :: 0 <= i < |s| ==> IsAlnum(s[i])) ==> Alnums(s) == s
  {
    if s != [] {
      AlnumsKeeps(s[1..]);
      assert s == [s[0]] + s[1..];
    }
  }

  /** `s.rstrip(chars)`: drops the whole trailing run of characters drawn from `cs`. */
  function RStripChars(s: string, cs: set<char>): (r: string)
    ensures |r| <= |s|
  {
    if s != [] && s[|s| - 1] in cs then RStripChars(s[..|s| - 1], cs) else s
  }

  /** `rstrip(chars)` keeps a prefix whose last character is not one of `chars`. */
  lemma {:induction false} RStripCharsIsPrefix(s: string, cs: set<char>)
    ensures RStripChars(s, cs) == s[..|RStripChars(s, cs)|]
    ensures RStripChars(s, cs) == [] || RStripChars(s, cs)[|RStripChars(s, cs)| - 1] !in cs
  {
    if s != [] && s[|s| - 1] in cs {
      RStripCharsIsPrefix(s[..|s| - 1], cs);
    }
  }

  /** `s.rfind(c)`, with `None` for -1. */
  function LastIndex(s: string, c: char): (r: Option<nat>)
    ensures r.Some? ==> r.value < |s|
  {
    if s == [] then None
    else if s[|s| - 1] == c then Some(|s| - 1)
    else LastIndex(s[..|s| - 1], c)
  }

  /** `rfind` finds the last occurrence: it is `c`, none follows it, and it fails only when
      there is none. */
  lemma {:induction false} LastIndexIsLast(s: string, c: char)
    ensures LastIndex(s, c).None? <==> c !in s
    ensures LastIndex(s, c).Some? ==>
      s[LastIndex(s, c).value] == c && c !in s[LastIndex(s, c).value + 1..]
  {
    if s != [] && s[|s| - 1] != c {
      LastIndexIsLast(s[..|s| - 1], c);
      assert s == s[..|s| - 1] + [s[|s| - 1]];
    }
  }

  /** `s.split(c)[-1]`: the segment after the last `c`, or all of `s` when there is none. */
  function AfterLast(s: string, c: char): (r: string)
    ensures |r| <= |s|
  {
    match LastIndex(s, c)
    case None => s
    case Some(i) => s[i + 1..]
  }

  /** The segment after the last separator is a suffix holding no separator, preceded by
      the separator, and it is everything when there is none. */
  lemma AfterLastIsLastSegment(s: string, c: char)
    ensures c !in AfterLast(s, c)
    ensures AfterLast(s, c) == s[|s| - |AfterLast(s, c)|..]
    ensures |AfterLast(s, c)| < |s| ==> s[|s| - |AfterLast(s, c)| - 1] == c
    ensures c !in s ==> AfterLast(s, c) == s
  {
    LastIndexIsLast(s, c);
  }

  /** The last occurrence of a separator is the one with no separator after it. */
  lemma {:induction false} LastIndexOfJoin(a: string, c: char, b: string)
    requires c !in b
    ensures LastIndex(a + [c] + b, c) == Some(|a|)
  {
    var s := a + [c] + b;
    if b != [] {
      var b' := b[..|b| - 1];
      assert s[..|s| - 1] == a + [c] + b';
      assert b == b' + [b[|b| - 1]];
      LastIndexOfJoin(a, c, b');
    }
  }

  /** The segment after a separator is whatever follows the separator, when that part has none. */
  lemma AfterLastOfJoin(a: string, c: char, b: string)
    requires c !in b
    ensures AfterLast(a + [c] + b, c) == b
  {
    LastIndexOfJoin(a, c, b);
    assert (a + [c] + b)[|a| + 1..] == b;
  }

  /** `os.path.basename(p)` (POSIX): the text after the last `/`. */
  function BaseName(p: string): (r: string)
    ensures |r| <= |p|
  {
    AfterLast(p, '/')
  }

  /** `os.path.splitext(p)[0]`: drops the extension after the last `.` of the last path
      component, unless everything before that dot in the component is dots. */
  function SplitExtRoot(p: string): (r: string)
    ensures |r| <= |p|
  {
    match LastIndex(p, '.')
    case None => p
    case Some(d) =>
      var start := match LastIndex(p, '/') case None => 0 case Some(k) => k + 1;
      if start <= d && exists i | start <= i < d :: p[i] != '.' then p[..d] else p
  }

  /** A name with no `/` and no `.` is its own base name and its own root. */
  lemma PlainNameIsItsOwnRoot(p: string)
    requires '/' !in p && '.' !in p
    ensures BaseName(p) == p && SplitExtRoot(p) == p
  {
    LastIndexIsLast(p, '/');
    LastIndexIsLast(p, '.');
  }

  predicate IsDigit(c: char) {
    '0' <= c <= '9'
  }

  predicate AllDigits(s: string) {
    forall i :: 0 <= i < |s| ==> IsDigit(s[i])
  }

  /** The value of a run of decimal digits, or `None` when some character is not a digit. */
  function Decimal(ds: string): Option<nat> {
    if ds == [] then Some(0)
    else if IsDigit(ds[|ds| - 1]) then
      match Decimal(ds[..|ds| - 1])
      case Some(v) => Some(v * 10 + (ds[|ds| - 1] as int - '0' as int))
      case None => None
    else None
  }

  /** Python `int(s)` on text: optional surrounding whitespace, at most one sign, then at
      least one decimal digit; anything else raises, which is `None` here. */
  function ParseInt(s: string): (r: Option<int>)
  {
    var t := Strip(s);
    var body := if t != [] && (t[0] == '+' || t[0] == '-') then t[1..] else t;
    if body == [] then None
    else match Decimal(body)
      case None => None
      case Some(v) => Some(if t[0] == '-' then -(v as int) else v)
  }

  /** Text that starts with something other than whitespace keeps that first character. */
  lemma StripKeepsFirst(s: string)
    requires s != [] && !IsSpace(s[0])
    ensures Strip(s) != [] && Strip(s)[0] == s[0]
  {
    assert StripLeft(s) == s;
    StripIsSlice(s);
  }

  /** One character that is not a digit spoils the whole run. */
  lemma {:induction false} DecimalRejects(ds: string, i: nat)
    requires i < |ds| && !IsDigit(ds[i])
    ensures Decimal(ds) == None
  {
    if i < |ds| - 1 {
      DecimalRejects(ds[..|ds| - 1], i);
    }
  }

  /** `int()` raises on text that starts with a letter. */
  lemma ParseIntRejectsLetter(s: string)
    requires s != [] && (('a' <= s[0] <= 'z') || ('A' <= s[0] <= 'Z'))
    ensures ParseInt(s) == None
  {
    StripKeepsFirst(s);
    DecimalRejects(Strip(s), 0);
  }

  function DigitChar(d: nat): char
    requires d < 10
  {
    ('0' as int + d) as char
  }

  /** `str(n)` for a natural number. */
  function NatToString(n: nat): (r: string)
    ensures r != [] && AllDigits(r)
  {
    if n < 10 then [DigitChar(n)] else NatToString(n / 10) + [DigitChar(n % 10)]
  }

  lemma {:induction false} DecimalOfNat(n: nat)
    ensures Decimal(NatToString(n)) == Some(n)
  {
    if n >= 10 {
      DecimalOfNat(n / 10);
      var s := NatToString(n);
      assert s[..|s| - 1] == NatToString(n / 10);
    }
  }

  /** A run of digits has no whitespace to strip. */
  lemma StripDigits(s: string)
    requires s != [] && AllDigits(s)
    ensures Strip(s) == s
  {
    assert IsDigit(s[0]) && IsDigit(s[|s| - 1]);
    assert !IsSpace(s[0]) && !IsSpace(s[|s| - 1]);
    assert StripLeft(s) == s;
    assert StripRight(s) == s;
  }

  /** `int(str(n)) == n`: the decimal rendering parses back to the number. */
  lemma ParseNatToString(n: nat)
    ensures ParseInt(NatToString(n)) == Some(n)
  {
    var s := NatToString(n);
    StripDigits(s);
    assert IsDigit(s[0]);
    DecimalOfNat(n);
  }

  /** `sep.join(xs)`. */
  function Join(sep: string, xs: seq<string>): string {
    if xs == [] then "" else if |xs| == 1 then xs[0] else xs[0] + sep + Join(sep, xs[1..])
  }

  /** A character found neither in the separator nor in any item is not in the joined text. */
  lemma {:induction false} JoinAvoids(sep: string, xs: seq<string>, c: char)
    requires c !in sep && forall i :: 0 <= i < |xs| ==> c !in xs[i]
    ensures c !in Join(sep, xs)
    decreases |xs|
  {
    if |xs| > 1 {
      JoinAvoids(sep, xs[1..], c);
    }
  }
}

=== FILE: total_facts.dfy ===
/**
  `compute_total` as a sum of points reduced mod 10, and how totals compose.
*/
module TotalFacts {
  import opened Cards

  /** Proof helper: the total unfolded once, so that proofs about totals need not look
      inside the points. */
  lemma TotalIsSumOfPoints(rule: Rule, cards: seq<string>)
    ensures Total(rule, cards) == Sum(Points(rule, cards)) % 10
  {
  }

  lemma {:induction false} SumOfConcat(a: seq<int>, b: seq<int>)
    ensures Sum(a + b) == Sum(a) + Sum(b)
  {
    if b == [] {
      assert a + b == a;
    } else {
      assert (a + b)[..|a + b| - 1] == a + b[..|b| - 1];
      SumOfConcat(a, b[..|b| - 1]);
    }
  }

  lemma ModOfSum(x: int, y: int)
    ensures (x + y) % 10 == (x % 10 + y % 10) % 10
  {
    var qx, qy := x / 10, y / 10;
    assert x == 10 * qx + x % 10;
    assert y == 10 * qy + y % 10;
    assert x + y == 10 * (qx + qy) + (x % 10 + y % 10);
  }

  lemma PointsOfConcat(rule: Rule, a: seq<string>, b: seq<string>)
    ensures Points(rule, a + b) == Points(rule, a) + Points(rule, b)
  {
    var l, r := Points(rule, a + b), Points(rule, a) + Points(rule, b);
    forall i | 0 <= i < |l| ensures l[i] == r[i] {
      if i < |a| {
        assert (a + b)[i] == a[i];
      } else {
        assert (a + b)[i] == b[i - |a|];
      }
    }
  }

  lemma SumOfConcatMod(pa: seq<int>, pb: seq<int>)
    ensures Sum(pa + pb) % 10 == (Sum(pa) % 10 + Sum(pb) % 10) % 10
  {
    SumOfConcat(pa, pb);
    ModOfSum(Sum(pa), Sum(pb));
  }

  /** Totals compose: the total of two piles is the total of their totals. */
  lemma TotalOfConcat(rule: Rule, a: seq<string>, b: seq<string>)
    ensures Total(rule, a + b) == (Total(rule, a) + Total(rule, b)) % 10
  {
    hide Point;
    PointsOfConcat(rule, a, b);
    SumOfConcatMod(Points(rule, a), Points(rule, b));
    TotalIsSumOfPoints(rule, a);
    TotalIsSumOfPoints(rule, b);
    TotalIsSumOfPoints(rule, a + b);
  }

  /** The total of a two-card hand, with the points of its cards left unexpanded. */
  lemma TotalOfPair(rule: Rule, x: string, y: string)
    ensures Total(rule, [x, y]) == (Point(rule, x) + Point(rule, y)) % 10
  {
    hide Point;
    var ps := Points(rule, [x, y]);
    assert ps == [Point(rule, x), Point(rule, y)];
    assert ps[..1] == [Point(rule, x)] && ps[..1][..0] == [];
    assert Sum(ps[..1]) == Point(rule, x);
    assert Sum(ps) == Point(rule, x) + Point(rule, y);
    TotalIsSumOfPoints(rule, [x, y]);
  }
}

=== FILE: wrappers.dfy ===
/** The optional value used for Python's `None`-or-value globals and for parses that can fail. */
module Wrappers {
  datatype Option<+T> = None | Some(value: T)
}
